=== FILE: README.md ===
# Go playground — a Dafny model

This project models the logic of a small Next.js Go playground:

- **Labels.** The coordinate and colour labels for stones (`app/lib/go.ts`).
- **Board.** The clickable board component, as a state machine (`app/components/GoBoard.tsx`).
- **Page.** The page's session state (`app/page.tsx`):
  - the move log;
  - the insight lists built from it;
  - the quest-agent pipeline, with its request counter;
  - the request body posted to the route.
- **Route.** The quest-agent HTTP route (`app/api/quest-agent/route.ts`): request validation, the prompt, the board summary, reading the completion, and parsing suggestions.
- **Key dialog.** The API-key dialog (`app/components/OpenRouterKeyDialog.tsx`).

Each React state update becomes a pure transition on an immutable record. The asynchronous quest request becomes two events, "request `id` sent" and "response for `id` arrives". The network, `JSON.parse`, `request.json()` and the environment's API key become parameters that describe what they produced.

The modules follow the program:

| Module | Models |
|---|---|
| `Wrappers` | `Option` |
| `Text` | the JavaScript string operations the code relies on |
| `Go` | `go.ts` |
| `Board` | `GoBoard.tsx` |
| `Session` | the page's move log, labels and insight lists |
| `Quest` | the page's quest-agent pipeline |
| `QuestRoute` | `route.ts` |
| `Page` | the page's handlers and request body |
| `KeyDialog` | the dialog |
| `Playground` | the board and the page together |

Rules of the JavaScript that the model states explicitly:

- `trim` and the regular-expression class `\s` remove the ECMAScript WhiteSpace and LineTerminator characters.
- `length` counts UTF-16 code units.
- `${n}` renders an integer in decimal. JavaScript numbers do this exactly only below 2^53, and from 10^21 on they switch to exponent form; the model's integers are unbounded (see "## Left out").
- `split(/\n+/)` splits on runs of line feeds and keeps empty pieces at the ends.
- `String.fromCharCode` takes its argument modulo 2^16.

## Model

| member | source | states |
|---|---|---|
| Text.TrimLeft | app/api/quest-agent/route.ts:203 | Stripping a leading character class leaves a suffix of the input. Every removed character is in the class and the first kept character is not. |
| Text.Trim | app/components/OpenRouterKeyDialog.tsx:44 | The trimmed string has no whitespace at either end and is no longer than the input. |
| Text.TrimIsSlice | app/api/quest-agent/route.ts:179 | `trim` keeps one contiguous slice of the input and removes only whitespace before and after it. |
| Text.TrimIdempotent | app/components/OpenRouterKeyDialog.tsx:62-63 | Trimming twice is the same as trimming once. `handleSave` trims and `validate` trims again, so the second trim changes nothing. |
| Text.TrimEmptyIffAllWhitespace | app/components/OpenRouterKeyDialog.tsx:44-46 | A string trims to "" exactly when every character of it is whitespace. |
| Text.NatToStringRoundTrip | app/lib/go.ts:13 | The decimal digits of a natural number read back as that number. |
| Text.IntToStringRoundTrip | app/lib/go.ts:13 | The decimal rendering of any integer, negative ones included, parses back to the same integer. |
| Text.IntToStringInjective | app/page.tsx:149 | Different integers render differently, so `move-${moveNumber}` ids of different moves differ. |
| Text.SplitNewlineRuns | app/api/quest-agent/route.ts:202 | `split(/\n+/)` gives at least one piece. No piece contains a line feed and every interior piece is non-empty. The first piece is empty only when the text is empty or starts with a line feed, and the last only when it is empty or ends with one. |
| Text.SplitJoinsToCollapse | app/api/quest-agent/route.ts:202 | Joining the pieces with "\n" gives the text with every run of line feeds collapsed to one line feed (`CollapseNewlineRuns`, defined character by character). With the pieces free of line feeds, this fixes every piece's contents. |
| Text.SplitJoinRoundTrip | app/api/quest-agent/route.ts:202 | Splitting non-empty, line-feed-free lines that were joined with "\n" gives back exactly those lines. |
| Text.DropEmpty | app/api/quest-agent/route.ts:192 | The filter keeps exactly the non-empty entries. A list with no empty entry comes back unchanged, and the result is empty exactly when every entry is. The page's own filter (app/page.tsx:285) is the same test on strings. |
| Text.DropEmptyAppend | app/api/quest-agent/route.ts:192 | Filtering works entry by entry: filtering `a + b` gives the filtered `a` followed by the filtered `b`. With the unchanged-list clause, this fixes both order and multiplicity. |
| Text.DropEmptySkipsEmpty | app/page.tsx:285 | An empty entry anywhere is dropped, and the entries around it keep their order. |
| Text.LowerAscii | app/page.tsx:193 | `toLowerCase` on the ASCII labels shifts A–Z by 32 and keeps every other character. |
| Text.Utf16LengthBounds | app/components/OpenRouterKeyDialog.tsx:54 | The UTF-16 length is between the number of characters and twice that. It equals the number of characters when every character is in the Basic Multilingual Plane. |
| Text.Utf16LengthAppend | app/components/OpenRouterKeyDialog.tsx:54 | The UTF-16 length of a concatenation is the sum of the lengths. |
| Go.ColumnLettersMatchOrder | app/lib/go.ts:9 | There are 25 column letters: A–H are columns 0–7 and J–Z are columns 8–24, so "I" is never a column letter. |
| Go.ColumnLetter | app/lib/go.ts:12 | Column 0–24 gets its own letter, never "I". Other columns fall back to the character with code 65 + column. |
| Go.FormatCoordinate | app/lib/go.ts:11-14 | A label is the column letter followed by at least one character for `row + 1`. |
| Go.FormatCoordinateRoundTrip | app/lib/go.ts:11-14 | For columns 0–24, reading a label back gives the row and column it was made from. |
| Go.FormatCoordinateInjective | app/lib/go.ts:9-13 | On columns 0–24, different cells get different labels. |
| Go.FormatCoordinateExamples | app/lib/go.ts:11-13 | (0,0) is "A1", (0,8) is "J1", (8,8) is "J9" and (18,18) is "T19". |
| Go.FallbackLetterCollides | app/lib/go.ts:12 | The fallback ignores the skipped "I", so column 25 is labelled "Z", the same as column 24. |
| Go.ColorLabel | app/lib/go.ts:16-18 | The label is "Black" exactly for black and "White" exactly for white. |
| Go.ColorLabelRoundTrip | app/lib/go.ts:16-18 | Reading the label back gives the colour, so the label is injective. |
| Board.Initial | app/components/GoBoard.tsx:27-30 | A new board has size × size empty cells, black to play, and is balanced. |
| Board.PlaceStone | app/components/GoBoard.tsx:37-51 | A click on an occupied cell changes nothing and reports no move. A click on an empty cell takes the current colour, and that cell alone changes. The turn passes. The reported move has row `index / size` and column `index % size`, both inside the board, and the pre-move colour. Filled cells never change. |
| Board.ResetBoard | app/components/GoBoard.tsx:53-57 | Reset leaves size × size empty cells with black to play. |
| Board.SizeEffect | app/components/GoBoard.tsx:32-35 | A size change installs an empty board of the new size with black to play. |
| Board.CountColorFill | app/components/GoBoard.tsx:43-45 | Filling one empty cell adds one stone of that colour and leaves the other colour's count unchanged. |
| Board.PlaceStonePreservesValid | app/components/GoBoard.tsx:37-51 | Black has as many stones as white or one more, and it is black's turn exactly when the counts are equal. Clicking keeps this true. |
| Board.PlaceStoneAddsOneStone | app/components/GoBoard.tsx:37-51 | An accepted click adds exactly one stone; an ignored one adds none. |
| Board.CellLabel | app/components/GoBoard.tsx:21-24 | The component's `formatCoordinate` ignores `size` and agrees with the library's. |
| Board.CellLabelsDistinct | app/components/GoBoard.tsx:89-92 | On boards of at most 25 columns, the keys of different cells are different. |
| Session.AppendMove | app/page.tsx:50-58 | `handleMove` keeps every earlier entry, copies the move's fields, and numbers the new entry `length + 1`, so moves stay numbered 1, 2, 3, … |
| Session.NextPlayer | app/page.tsx:81 | The next player is "Black" exactly when the number of moves is even, and "White" exactly when it is odd. |
| Session.BoardLabel | app/page.tsx:493-502 | The label is "expansive" exactly for 19, "attentive" exactly for 13, and "compact" for every other size. |
| Session.BoardLabelDistinguishesOfferedSizes | app/page.tsx:493-502 | The three sizes the select offers get three different labels. |
| Session.LatestMoveItem | app/page.tsx:86-103 | The first remembered item is "latest-move" when there are moves. Its heading names the last move's colour, and its detail names that move's number and coordinate. Otherwise the item is "first-stone". |
| Session.IntentionItem | app/page.tsx:105-112 | The intention shows the opening advice exactly when fewer than 6 moves have been played. |
| Session.SpotlightItem | app/page.tsx:114-123 | Once a move exists, the spotlight detail names the last move's coordinate. |
| Session.BoardScaleItem | app/page.tsx:125-129 | The board-scale heading contains the board label. |
| Session.RememberItems | app/page.tsx:83-132 | There are always 4 items with distinct ids and non-empty headings. The first is "latest-move" exactly when moves exist and then names the last move. The intention follows the 6-move rule. The last heading carries the board label. |
| Session.Reverse | app/page.tsx:145-146 | Reversal keeps the length and puts element `k` at position `n-1-k`. |
| Session.RecentItems | app/page.tsx:148-153 | Each recent item is built from the move at the same position. |
| Session.RecentThoughts | app/page.tsx:134-154 | With no moves the list is the single "recent-empty" placeholder. Otherwise it holds min(5, n) items, newest first. Each has id "move-" followed by its move number, with the move's colour as tag. |
| Session.RecentThoughtsDistinctIds | app/page.tsx:145-153 | In a log numbered 1, 2, 3, … the recent items have distinct ids. |
| Session.QuickThoughts | app/page.tsx:156-178 | There are 3 quick thoughts with distinct ids and non-empty headings. |
| Session.OpeningQuests | app/page.tsx:181-203 | Before any move there are 3 quests with distinct ids. The first is "quest-first" and the last is tagged with the board label. |
| Session.FollowUpQuests | app/page.tsx:206-227 | After a move there are 3 quests with distinct ids. "quest-link" names the last coordinate and the counter quest names the next player. |
| Session.QuestItems | app/page.tsx:180-228 | There are always 3 quests with distinct ids and non-empty headings. "quest-link" comes first exactly when moves exist. |
| Session.FindItem | app/page.tsx:231 | `find` succeeds exactly when some item has the id, and it returns an item of the list with that id. |
| Session.FindItemFirst | app/page.tsx:231 | `find` returns the first item with the id. |
| Quest.Initial | app/page.tsx:27-37 | The pipeline starts idle, with no quest, no guidance and counter 0. |
| Quest.ResetPipeline | app/page.tsx:39-48 | A reset clears the quest, guidance, error and refs, sets idle, and strictly increases the request counter. |
| Quest.SelectQuest | app/page.tsx:74-77 | Selecting sets the quest id and bumps the replay token. Every other field is kept: the counter, guidance, status, error, the last quest id and the replay ref. |
| Quest.ReselectClearsGuidance | app/page.tsx:318-332 | Selecting the quest that is already active and letting the effect run again clears the guidance, because the replay token moved. |
| Quest.RerunKeepsGuidance | app/page.tsx:318-332 | Without a selection in between, the effect running again for the same quest refreshes in place and keeps the guidance. |
| Quest.SendUpdate | app/page.tsx:235-249 | Nothing happens without an active quest. Otherwise the new request id is counter + 1, the status becomes loading and the error is cleared. Guidance is cleared only on a quest change. The selected quest id, the replay token, the last quest id and the replay ref are kept. |
| Quest.QuestEffect | app/page.tsx:318-338 | With no active quest the panel returns to idle with no guidance and no error, the last quest id is cleared, the replay ref takes the token, the counter is kept and no request is sent. Otherwise the last quest id and replay ref are recorded and a request is sent. Guidance is cleared exactly when the quest id or the replay token changed since the last run. |
| Quest.TrimAll | app/page.tsx:283-284 | Every suggestion is trimmed, in order. |
| Quest.RawOrNote | app/page.tsx:293-301 | The raw text, trimmed, is used when it is not blank. Otherwise the fixed note is used. |
| Quest.ChooseGuidance | app/page.tsx:283-302 | Guidance is never empty and has no empty line. If any trimmed suggestion is non-empty, the lines are exactly the non-empty trimmed suggestions, in their order and with repeats kept. If none is, the lines come from the raw text or else the fixed note. |
| Quest.Complete | app/page.tsx:279-313 | A response whose id is not the counter changes nothing. The newest response sets ready with the chosen guidance on success. On success the error is kept as it was. On failure it sets error with the unavailable message and keeps the guidance. The selected quest, the replay token, the last quest id and the replay ref are never touched. |
| Quest.VanishedQuestStillPublishes | app/page.tsx:318-326 | As written: after a request is sent, the effect's no-quest branch sets the panel idle without advancing the counter, so the late response still lands and sets ready with its guidance. |
| Quest.StatusLabelRoundTrip | app/page.tsx:340-351 | Each status has its own label: Listening, Responded, Offline or Idle. |
| Quest.Step | app/page.tsx:235-338 | No pipeline event moves the request counter backwards. |
| Quest.StaleStaysStale | app/page.tsx:241 | An id below the counter stays below it after any sequence of events. |
| Quest.SupersededResponseDiscarded | app/page.tsx:279-306 | A late response to a superseded request changes nothing, whatever happened in between. |
| Quest.ResetDiscardsInFlight | app/page.tsx:45 | After a reset, no response to an earlier request is published. |
| Quest.OnlyNewestPublishes | app/page.tsx:241-306 | Of two requests in a row, the first is ignored and only the second publishes. |
| QuestRoute.Validate | app/api/quest-agent/route.ts:34-66 | The checks run in order, and each failure has its own answer. An unparseable body gives 400 "Invalid request body.". A missing heading gives 400 "Quest heading is required.". A missing or < 1 board size gives 400 "Board size must be provided.". A missing key gives 500 "Quest agent is not configured.". A request is accepted exactly when all four checks pass. |
| QuestRoute.RejectedRequestsSkipUpstream | app/api/quest-agent/route.ts:34-66 | A rejected request gets the same answer whatever the upstream would do, so no upstream call is made. |
| QuestRoute.Post | app/api/quest-agent/route.ts:31-141 | A non-ok upstream gives 502. A thrown fetch or an unreadable body gives 500. Otherwise the answer is 200, with the suggestions and the raw text that `parseSuggestions` made of the first choice's message content. |
| QuestRoute.SummaryLineRoundTrip | app/api/quest-agent/route.ts:151-157 | For columns 0–24, reading a summary line back at ". " and " → " gives the move's number (`moveNumber`, else position + 1), its colour and its row and column. |
| QuestRoute.SummaryLinesReadBack | app/api/quest-agent/route.ts:151-157 | Every summary line reads back as its own move's number, colour and cell, in input order. |
| QuestRoute.SummaryLineIsOneLine | app/api/quest-agent/route.ts:153-156 | For columns 0–24, a summary line is non-empty and has no line feed. |
| QuestRoute.SummaryHeaderIsOneLine | app/api/quest-agent/route.ts:159 | The header is a single non-empty line. |
| QuestRoute.BuildBoardSummary | app/api/quest-agent/route.ts:143-160 | An empty log gives the single sentence "Board state: a N×N grid with no stones yet." (lines 147-149). Any other log gives the header "Board state on a N×N board after k move(s):" on a line of its own. The summary contains a line break exactly when the log is non-empty. |
| QuestRoute.BuildBoardSummaryLines | app/api/quest-agent/route.ts:143-160 | Split back into lines, the summary is the header with the move count followed by one line per move, in input order. |
| QuestRoute.ExtractMessageContent | app/api/quest-agent/route.ts:162-176 | Missing content gives "". A string is returned unchanged. An array gives text whose length is the sum of its parts' texts. |
| QuestRoute.JoinPartsLength | app/api/quest-agent/route.ts:173-175 | The joined content is as long as all part texts together. |
| QuestRoute.JoinPartsAppend | app/api/quest-agent/route.ts:173-175 | The content of two runs of parts is the concatenation of their contents. |
| QuestRoute.TextlessPartsIgnored | app/api/quest-agent/route.ts:174 | Null parts and parts without `text` contribute nothing. |
| QuestRoute.RenderAll | app/api/quest-agent/route.ts:189-191 | Strings are trimmed and other values keep their `String` rendering, in order. |
| QuestRoute.CleanLine | app/api/quest-agent/route.ts:203 | A cleaned line is the text that starts right after the longest leading run of "-", "•" and whitespace. Everything after the result in the line is whitespace, and the result is trimmed. |
| QuestRoute.CleanBulletedLine | app/api/quest-agent/route.ts:203 | A "- " bullet in front of clean text is removed, and the text is kept as it is. |
| QuestRoute.CleanLines | app/api/quest-agent/route.ts:203-204 | Every surviving line is a non-empty single line with no bullet or space at the front and no space at the end. |
| QuestRoute.FallbackSuggestions | app/api/quest-agent/route.ts:201-205 | The fallback gives the first three of the non-empty cleaned lines, in order, or all of them when there are fewer. Each is such a clean line. |
| QuestRoute.FallbackStripsBullets | app/api/quest-agent/route.ts:201-205 | A "- " bulleted list of clean lines comes back as its first three items, without their bullets. |
| QuestRoute.FallbackReadsLines | app/api/quest-agent/route.ts:201-205 | Content made of clean lines joined by "\n" comes back as its first three lines. |
| QuestRoute.CleanLinesKeepsClean | app/api/quest-agent/route.ts:203-204 | Lines that are already clean pass through unchanged and none is dropped. |
| QuestRoute.ParseSuggestions | app/api/quest-agent/route.ts:178-208 | Blank content gives no suggestions and raw "". Otherwise raw is the trimmed content. The JSON array is used exactly when at least one rendered entry is non-empty. The suggestions are then its non-empty renderings, in order. Otherwise the line fallback applies: when the content is not an array, and also when it is an array whose entries all render to "". Only the JSON branch can give more than 3. |
| QuestRoute.ParseTrimmed | app/api/quest-agent/route.ts:185-207 | For non-blank trimmed content: raw is that content; the non-empty renderings of the array, in order, when there are any; otherwise the first three cleaned lines; never an empty suggestion, and more than 3 only from the array. |
| QuestRoute.QuestDetail | app/api/quest-agent/route.ts:75-76 | There is a detail exactly when the request's quest has a `detail` whose trim is non-empty. It is then that trim. |
| QuestRoute.PromptParts | app/api/quest-agent/route.ts:75-85 | The parts are, in order: "Board: n×n" for the board size, the summary of the request's moves, "Next to play: " and the player, "Quest focus: " and the heading, and the closing request last. A "Quest detail" line appears exactly when the trimmed detail is non-empty. No part is empty. |
| QuestRoute.PromptPartsDetail | app/api/quest-agent/route.ts:78-85 | No part other than the detail line starts with "Quest detail: ". |
| QuestRoute.UserPrompt | app/api/quest-agent/route.ts:108 | The user message opens with the board line and a blank line. It holds the board summary as a paragraph between blank lines, and it ends with a blank line and the closing request. |
| Page.Initial | app/page.tsx:25-26 | The page starts at size 9 with an empty log and black to play. |
| Page.HandleMove | app/page.tsx:50-58 | A move extends the log by one entry numbered `length + 1`. Earlier entries, size and pipeline are unchanged, and the next player flips. |
| Page.HandleReset | app/page.tsx:60-63 | Reset empties the log, gives black the move and leaves the pipeline exactly as `resetQuestPipeline` makes it (app/page.tsx:39-48): no quest, token 0, no guidance, idle, no error, both refs cleared and the counter advanced. |
| Page.HandleBoardSizeChange | app/page.tsx:65-72 | Choosing the current size changes nothing. Another size is recorded, empties the log and leaves the pipeline exactly as `resetQuestPipeline` makes it: idle, no guidance, no quest and the counter advanced. |
| Page.HandleQuestSelect | app/page.tsx:74-77 | A click on a quest is `SelectQuest` on the pipeline: the id is selected and the replay token bumped, while guidance, status, the counter and the log are kept. |
| Page.ActiveQuest | app/page.tsx:230-233 | The active quest is the offered quest with the selected id, present exactly when such a quest is offered. Its heading is non-empty. |
| Page.RouteMoves | app/page.tsx:264-269 | Every logged move is sent, in order, with its own number. |
| Page.RequestBody | app/page.tsx:256-270 | The body carries the size, the next player, the quest with `detail ?? ""`, and the moves with their numbers. |
| Page.PageRequestAccepted | app/page.tsx:256-270 | On any positive board size, the body the page sends for its active quest passes the route's validation once a key is configured. |
| Page.SummaryNumbersFollowLog | app/page.tsx:264-269 | The route numbers summary lines 1, 2, 3, … from the page's own move numbers. |
| Page.Step | app/page.tsx:50-338 | Every page event keeps the log numbered and never moves the counter back. |
| Page.RunKeepsValid | app/page.tsx:50-77 | After any sequence of events the log is numbered 1, 2, 3, … |
| Page.RunKeepsCounter | app/page.tsx:39-48 | The request counter never decreases over a run. |
| Page.ResetDiscardsLateResponse | app/page.tsx:60-72 | After a reset or a real size change, a response to any earlier request is ignored, whatever happens in between. |
| KeyDialog.ErrorMessageInjective | app/components/OpenRouterKeyDialog.tsx:46-56 | The three refusals show three different messages. |
| KeyDialog.Validate | app/components/OpenRouterKeyDialog.tsx:43-59 | Blank input is refused as missing. Otherwise input without the "sk-" prefix is refused as a prefix problem. Otherwise input shorter than 10 UTF-16 units is too short. A key passes exactly when its trim starts with "sk-" and is at least 10 long. |
| KeyDialog.PrefixCheckedBeforeLength | app/components/OpenRouterKeyDialog.tsx:50-56 | A short key without the prefix is reported as a prefix problem, not as too short. |
| KeyDialog.NineCharactersTooShort | app/components/OpenRouterKeyDialog.tsx:54-56 | "sk-012345" (9 units) is too short. |
| KeyDialog.TenCharactersAccepted | app/components/OpenRouterKeyDialog.tsx:54-58 | "sk-0123456" (10 units) is accepted. |
| KeyDialog.Mount | app/components/OpenRouterKeyDialog.tsx:18-24 | The dialog mounts with the initial value and no error. |
| KeyDialog.HandleSave | app/components/OpenRouterKeyDialog.tsx:61-71 | `onSave` fires exactly when the value is valid, with the trimmed value. Otherwise the error message is recorded, the value is kept, and nothing is saved. |
| KeyDialog.HandleKeyDown | app/components/OpenRouterKeyDialog.tsx:73-78 | Enter saves; any other key does nothing. |
| KeyDialog.CancelClicked | app/components/OpenRouterKeyDialog.tsx:127-131 | Cancel restores the initial value, clears the error and fires `onCancel`. |
| KeyDialog.ClearClicked | app/components/OpenRouterKeyDialog.tsx:112-116 | Clear empties the value, clears the error and fires `onClear`. |
| KeyDialog.SavedKeyIsStable | app/components/OpenRouterKeyDialog.tsx:61-71 | A saved key is trimmed and valid, and saving it again saves the same key. |
| KeyDialog.ClearThenSaveRefused | app/components/OpenRouterKeyDialog.tsx:112-116 | Saving right after Clear is refused with the missing-key message. |
| Playground.Initial | app/page.tsx:415-420 | The page and the freshly mounted board start consistent. |
| Playground.Step | app/page.tsx:415-420 | With the size passed through, every click, reset and size choice keeps the board and the page consistent: same size, the board's turn given by the parity of the log, one stone per logged move, logged colours alternating from black, and each logged move's cell holding its stone. A reset or a real size change empties both and gives black the move. |
| Playground.ClickKeepsConsistent | app/components/GoBoard.tsx:37-51 | An accepted click adds the move to the log and the stone to the board in step; an ignored click changes neither. |
| Playground.Run | app/page.tsx:415-420 | With the size passed through, consistency holds after any sequence of user actions. |
| Playground.NextPlayerMatchesBoard | app/page.tsx:81 | With the size passed through, after any sequence of actions, the page's "next to play" is the board's colour to play, which is black exactly when the log length is even. |
| Playground.ChooseSizeAsWritten | app/page.tsx:415-420 | As written, a new size is recorded by the page while the remounted board keeps the default size 9. The log and the board are emptied together, so the board's turn still follows the log's length. |
| Playground.StepAsWritten | app/page.tsx:415-420 | As written, every click, reset and size choice keeps the board's turn equal to the parity of the log and the stone count equal to the log's length. An ignored click changes nothing and an accepted one logs one move. |
| Playground.RunAsWritten | app/page.tsx:415-420 | As written, that agreement holds after any sequence of user actions. |
| Playground.NextPlayerMatchesBoardAsWritten | app/page.tsx:81 | Even as written, with the board ignoring the chosen size, the page's "next to play" is the board's colour to play after any sequence of actions, black exactly when the log length is even. |
| Playground.InitialTurnAgrees | app/page.tsx:415-420 | The page and the board start with their turns in agreement. |
| Playground.SizeChoiceIgnoredAsWritten | app/page.tsx:415-420 | As written, choosing 19 leaves the page at 19 × 19 and the board with 81 cells, and the two are no longer consistent. |
| Playground.SizeChoiceHonoured | app/page.tsx:415-420 | With the size passed through, choosing 19 gives a consistent 19 × 19 board of 361 cells. |

## Left out

- Network and environment: `fetch`, `NextResponse`, `process.env`, `console`, `request.json()` and `JSON.parse`. The model receives their outcome as a datatype or an oracle function.
- The request headers, model name and system prompt sent upstream. They are constant strings and the code does not branch on them.
- React scheduling. `useEffect`/`useMemo` timing, refs, `requestAnimationFrame` focus and real asynchronous interleavings are left out. The pipeline is a sequence of events carrying request ids.
- Markup and styling: the JSX, the CSS classes and the quest panel's rendering.
- `app/lib/openrouter.ts` and `app/components/InsightPanel.tsx` are not part of this model. One is a network wrapper; the other renders.
- Numbers are integers. A non-integer `boardSize`, row or column in a request body is not modelled.
- Go.FromCharCode: a code unit in the surrogate range is not a Unicode scalar value, so it is rendered as U+FFFD. The code produces a lone surrogate there. This only matters for columns from 0xD800 − 65 upwards.
- Board.PlaceStone: requires an index inside the board. Its only caller is the click handler of an existing cell.
- Playground.Step: requires the new size to be one the select offers (9, 13 or 19). The select offers no others.
- QuestRoute.ExtractMessageContent: for arrays it states the length of the result, and JoinPartsAppend and TextlessPartsIgnored state its contents. Content of another JSON type (a number, an object) is not modelled.
- Quest.ChooseGuidance: it does not state that the fixed note is itself trimmed. Proving that would mean reading a 92-character literal character by character.
- The page's response body (`Quest.AgentResponse`) is taken to hold strings. A `suggestions` array with non-string entries is not modelled.
- Session.RememberItems: it states the ids, the item count and the facts above, not the exact wording of each fixed sentence.
- QuestRoute.CleanLines: its own contract states only that each survivor is clean. Which piece each survivor came from, and in what order, is stated by the contract of QuestRoute.FallbackSuggestions.
- The request body is typed. The route reads untyped JSON, and the typed `Payload` cannot hold a truthy non-string heading (such as 7), a string `boardSize` (such as "9", which passes the size check), a `moves` value that is not an array, or a `detail` that is not a string. The last two make the route throw outside its `try`, so the runtime's own 500 answers; none of these inputs is modelled. Nor can it hold a missing or non-string `nextPlayer`, which the prompt renders as "Next to play: undefined" (app/api/quest-agent/route.ts:81); a move colour other than "black" or "white", which app/lib/go.ts:17 labels "White"; or a string `row`, for which app/lib/go.ts:13 concatenates ("3" + 1 gives "31").
- Text.IntToString: integers are unbounded and always render in plain decimal. A `boardSize`, `row` or `moveNumber` of magnitude above 2^53 (not held exactly), or of 10^21 or more (exponent form), renders differently in JavaScript; these values come from untyped JSON and are not bounded by the model.
- KeyDialog.Mount: the state survives closing. The component stays mounted while closed (it returns `null`), so reopening shows the value and error it was closed with, not the initial value; reopening is not modelled as a transition.
- QuestRoute.UserPrompt: it states how the message begins and ends and that the summary is a paragraph of its own. It does not state where the player, focus and detail lines sit in the joined text; PromptParts states that per part.

## Findings

| source | as written | input that shows it | evidently intended | confidence | as-written member | corrected member |
|---|---|---|---|---|---|---|
| app/page.tsx:415-420 | The page mounts `<GoBoard boardSize={boardSize} …>`. The component declares only a `size` prop (app/components/GoBoard.tsx:14, 26), so `size` keeps its default of 9. | Choose 19 in the resize select: the page shows a 19 × 19 board, but the board offers 81 cells. | Pass `size={boardSize}`, so the mounted board has the page's size. | not executed | Playground.SizeChoiceIgnoredAsWritten | Playground.Step |

Reproduced as written, without a corrected counterpart: when the active quest stops being offered, the quest effect's no-quest branch (app/page.tsx:318-326) sets the panel idle but does not advance `questRequestRef`. A reply already in flight therefore passes the check at app/page.tsx:279 and sets the status to ready, so the header can read "Responded" while the panel asks for a quest. One way to get there: select "quest-first" on an empty board, then play a stone before the reply arrives; the offered ids become quest-link, quest-counter and quest-reflect. `Quest.VanishedQuestStillPublishes` states this at the level of the pipeline. Whether the source means it is unclear, so the model keeps the behaviour as written.

=== FILE: board.dfy ===
/**
 The clickable board component (app/components/GoBoard.tsx): a flat row-major
 array of `size * size` optional stones and the colour to play. React state
 updates become pure transitions returning the next board together with the
 move reported to the `onMove` callback.
 */
module Board {
  import opened Wrappers
  import opened Text
  import Go

  type StoneColor = Go.StoneColor

  /** The `size` prop's default. */
  const DefaultSize: nat := 9

  datatype Board = Board(size: nat, stones: seq<Option<StoneColor>>, currentPlayer: StoneColor)

  /** What a click produces: the next board and the move passed to `onMove`
      (`None` when the click is ignored). */
  datatype Placement = Placement(board: Board, emitted: Option<Go.GoMove>)

  /** The stones array is always allocated with `size * size` cells. */
  predicate WellFormed(b: Board) {
    |b.stones| == b.size * b.size
  }

  function CountColor(stones: seq<Option<StoneColor>>, color: StoneColor): nat {
    if |stones| == 0 then 0
    else (if stones[0] == Some(color) then 1 else 0) + CountColor(stones[1..], color)
  }

  /** Black moves first and the turn alternates: black has as many stones as
      white or one more, and it is black's turn exactly when they are level. */
  predicate Balanced(b: Board) {
    var blacks := CountColor(b.stones, Go.Black);
    var whites := CountColor(b.stones, Go.White);
    && (blacks == whites || blacks == whites + 1)
    && (b.currentPlayer == Go.Black <==> blacks == whites)
  }

  predicate Valid(b: Board) {
    WellFormed(b) && Balanced(b)
  }

  /** `new Array(size * size).fill(null)` with black to play: the initial
      state, the state after `resetBoard`, and the state the size effect
      installs. */
  function Initial(size: nat): (b: Board)
    ensures Valid(b) && b.size == size
    ensures forall j :: 0 <= j < |b.stones| ==> b.stones[j].None?
    ensures b.currentPlayer == Go.Black
  {
    var stones := seq(size * size, _ => None);
    CountColorNone(stones, Go.Black);
    CountColorNone(stones, Go.White);
    Board(size, stones, Go.Black)
  }

  lemma {:induction false} CountColorNone(stones: seq<Option<StoneColor>>, color: StoneColor)
    requires forall j :: 0 <= j < |stones| ==> stones[j].None?
    ensures CountColor(stones, color) == 0
  {
    if |stones| > 0 {
      CountColorNone(stones[1..], color);
    }
  }

  /** `placeStone(index)`: ignored on an occupied cell; otherwise the cell
      receives the current colour, the turn passes, and the move at row
      `index / size`, column `index % size` is reported. */
  function PlaceStone(b: Board, index: int): (r: Placement)
    requires WellFormed(b)
    requires 0 <= index < |b.stones|
    ensures r.board.size == b.size && |r.board.stones| == |b.stones|
    ensures r.emitted.None? <==> b.stones[index].Some?
    ensures r.emitted.None? ==> r.board == b
    ensures r.emitted.Some? ==>
              var m := r.emitted.value;
              && 0 <= m.row < b.size && 0 <= m.column < b.size
              && m.row * b.size + m.column == index
              && m.color == b.currentPlayer
              && r.board.stones[index] == Some(m.color)
              && r.board.currentPlayer != b.currentPlayer
    ensures forall j :: 0 <= j < |b.stones| && j != index ==> r.board.stones[j] == b.stones[j]
    ensures forall j :: 0 <= j < |b.stones| && b.stones[j].Some? ==> r.board.stones[j] == b.stones[j]
  {
    if b.stones[index].Some? then Placement(b, None)
    else
      var moveColor := b.currentPlayer;
      var next := Board(b.size, b.stones[index := Some(moveColor)], moveColor.Opposite());
      var row := index / b.size;
      var column := index % b.size;
      CellOfIndex(index, b.size);
      Placement(next, Some(Go.GoMove(row, column, moveColor)))
  }

  lemma CellOfIndex(index: int, size: nat)
    requires 0 <= index < size * size
    ensures 0 <= index / size < size && 0 <= index % size < size
    ensures (index / size) * size + index % size == index
  {
    var q := index / size;
    assert q * size <= index;
    MulCancel(q, size, size);
  }

  lemma MulCancel(a: int, b: int, c: int)
    requires c > 0 && a * c < b * c
    ensures a < b
  {
  }

  /** `resetBoard`: every cell empty, black to play; `onReset` is reported to
      the caller separately. */
  function ResetBoard(b: Board): (r: Board)
    ensures Valid(r) && r.size == b.size && r.currentPlayer == Go.Black
    ensures forall j :: 0 <= j < |r.stones| ==> r.stones[j].None?
  {
    Initial(b.size)
  }

  /** The effect that runs when `size` changes: a fresh board of the new
      size with black to play (no callback fires). */
  function SizeEffect(size: nat): (r: Board)
    ensures Valid(r) && r.size == size && r.currentPlayer == Go.Black
    ensures forall j :: 0 <= j < |r.stones| ==> r.stones[j].None?
  {
    Initial(size)
  }

  /** Filling an empty cell adds one to that colour's count and leaves the
      other colour's count alone. */
  lemma {:induction false} CountColorFill(stones: seq<Option<StoneColor>>, index: int, fill: StoneColor, color: StoneColor)
    requires 0 <= index < |stones| && stones[index].None?
    ensures CountColor(stones[index := Some(fill)], color)
            == CountColor(stones, color) + (if fill == color then 1 else 0)
  {
    var next := stones[index := Some(fill)];
    if index == 0 {
      assert next[1..] == stones[1..];
    } else {
      assert next[1..] == stones[1..][index - 1 := Some(fill)];
      CountColorFill(stones[1..], index - 1, fill, color);
    }
  }

  /** Clicking keeps the board valid: the stone balance and the turn stay in
      step. */
  lemma PlaceStonePreservesValid(b: Board, index: int)
    requires Valid(b) && 0 <= index < |b.stones|
    ensures Valid(PlaceStone(b, index).board)
  {
    if b.stones[index].None? {
      CountColorFill(b.stones, index, b.currentPlayer, Go.Black);
      CountColorFill(b.stones, index, b.currentPlayer, Go.White);
    }
  }

  /** An accepted click adds exactly one stone. */
  lemma PlaceStoneAddsOneStone(b: Board, index: int)
    requires WellFormed(b) && 0 <= index < |b.stones|
    ensures var r := PlaceStone(b, index);
            CountColor(r.board.stones, Go.Black) + CountColor(r.board.stones, Go.White)
            == CountColor(b.stones, Go.Black) + CountColor(b.stones, Go.White)
               + (if r.emitted.Some? then 1 else 0)
  {
    if b.stones[index].None? {
      CountColorFill(b.stones, index, b.currentPlayer, Go.Black);
      CountColorFill(b.stones, index, b.currentPlayer, Go.White);
    }
  }

  // ---------------------------------------------------------------------------
  // The component's own copy of formatCoordinate
  // ---------------------------------------------------------------------------

  const BoardColumnLetters: string := "ABCDEFGHJKLMNOPQRSTUVWXYZ"

  /** The component's `formatCoordinate(row, column, size)`: `size` is
      accepted and ignored, and the label is the library's. */
  function CellLabel(row: int, column: int, size: int): (r: string)
    ensures r == Go.FormatCoordinate(row, column)
  {
    var letter := if 0 <= column < |BoardColumnLetters| then BoardColumnLetters[column]
                  else Go.FromCharCode(65 + column);
    [letter] + IntToString(row + 1)
  }

  /** The cell buttons are keyed by their labels; on any board of at most 25
      columns the keys are distinct. */
  lemma CellLabelsDistinct(size: nat, i: int, j: int)
    requires size <= 25
    requires 0 <= i < size * size && 0 <= j < size * size && i != j
    ensures CellLabel(i / size, i % size, size) != CellLabel(j / size, j % size, size)
  {
    CellOfIndex(i, size);
    CellOfIndex(j, size);
    if CellLabel(i / size, i % size, size) == CellLabel(j / size, j % size, size) {
      Go.FormatCoordinateInjective(i / size, i % size, j / size, j % size);
    }
  }
}

=== FILE: go.dfy ===
/**
 Stone colours and the coordinate and colour labels shared by the board, the
 page and the quest-agent route (app/lib/go.ts).
 */
module Go {
  import opened Wrappers
  import opened Text

  datatype StoneColor = Black | White {
    function Opposite(): StoneColor {
      if this == Black then White else Black
    }
  }

  /** A move as the board reports it: zero-based row and column. */
  datatype GoMove = GoMove(row: int, column: int, color: StoneColor)

  /** Column letters in traditional Go order: "I" is skipped. */
  const ColumnLetters: string := "ABCDEFGHJKLMNOPQRSTUVWXYZ"

  /** An independent description of the letter order: A..H are columns 0..7,
      J..Z are columns 8..24, and nothing else (in particular not "I") is a
      column letter. */
  function LetterColumn(c: char): Option<nat> {
    if 'A' <= c <= 'H' then Some(c as int - 'A' as int)
    else if 'J' <= c <= 'Z' then Some(c as int - 'A' as int - 1)
    else None
  }

  lemma ColumnLettersMatchOrder()
    ensures |ColumnLetters| == 25
    ensures forall k :: 0 <= k < 25 ==> LetterColumn(ColumnLetters[k]) == Some(k)
    ensures forall k :: 0 <= k < 25 ==> ColumnLetters[k] != 'I'
  {
    forall k | 0 <= k < 25
      ensures LetterColumn(ColumnLetters[k]) == Some(k) && ColumnLetters[k] != 'I'
    {
      if k < 8 {
        assert ColumnLetters[k] as int == 'A' as int + k;
      } else {
        assert ColumnLetters[k] as int == 'A' as int + k + 1;
      }
    }
  }

  /** `String.fromCharCode(code)`: the UTF-16 code unit `code` modulo 2^16.
      A lone surrogate code unit is not a Dafny character and is rendered as
      U+FFFD here. */
  function FromCharCode(code: int): (c: char)
    ensures 0 <= code < 0xD800 ==> c as int == code
  {
    var unit := code % 0x1_0000;
    if 0xD800 <= unit < 0xE000 then '\U{FFFD}' else unit as char
  }

  /** `COLUMN_LETTERS[column] ?? String.fromCharCode(65 + column)`. */
  function ColumnLetter(column: int): (c: char)
    ensures 0 <= column < 25 ==> LetterColumn(c) == Some(column) && c != 'I'
    ensures 25 <= column < 0xD800 - 65 ==> c as int == 65 + column
    ensures column < 0 && -65 <= column ==> c as int == 65 + column
  {
    ColumnLettersMatchOrder();
    if 0 <= column < |ColumnLetters| then ColumnLetters[column] else FromCharCode(65 + column)
  }

  /** `formatCoordinate(row, column)`: column letter followed by `row + 1`. */
  function FormatCoordinate(row: int, column: int): (r: string)
    ensures |r| >= 2 && r[0] == ColumnLetter(column)
  {
    [ColumnLetter(column)] + IntToString(row + 1)
  }

  /** Reads a label back into (row, column); `None` when the first character
      is not a column letter or the rest is not a numeral. */
  function ParseCoordinate(s: string): Option<(int, int)> {
    if |s| < 2 then None
    else match (LetterColumn(s[0]), ParseInt(s[1..]))
      case (Some(column), Some(n)) => Some((n - 1, column))
      case _ => None
  }

  lemma FormatCoordinateRoundTrip(row: int, column: int)
    requires 0 <= column < 25
    ensures ParseCoordinate(FormatCoordinate(row, column)) == Some((row, column))
  {
    var s := FormatCoordinate(row, column);
    assert s[1..] == IntToString(row + 1);
    IntToStringRoundTrip(row + 1);
  }

  /** Distinct cells on a board of at most 25 columns get distinct labels. */
  lemma FormatCoordinateInjective(row1: int, column1: int, row2: int, column2: int)
    requires 0 <= column1 < 25 && 0 <= column2 < 25
    requires FormatCoordinate(row1, column1) == FormatCoordinate(row2, column2)
    ensures row1 == row2 && column1 == column2
  {
    FormatCoordinateRoundTrip(row1, column1);
    FormatCoordinateRoundTrip(row2, column2);
  }

  lemma FormatCoordinateExamples()
    ensures FormatCoordinate(0, 0) == "A1"
    ensures FormatCoordinate(0, 8) == "J1"
    ensures FormatCoordinate(8, 8) == "J9"
    ensures FormatCoordinate(18, 18) == "T19"
  {
    assert NatToString(19) == NatToString(1) + [DigitChar(9)];
  }

  /** Beyond the 25 letters the fallback does not account for the skipped
      "I": column 25 is labelled "Z" again, colliding with column 24. */
  lemma FallbackLetterCollides(row: int)
    ensures ColumnLetter(25) == ColumnLetter(24) == 'Z'
    ensures FormatCoordinate(row, 25) == FormatCoordinate(row, 24)
  {
  }

  /** `colorLabel`. */
  function ColorLabel(color: StoneColor): (r: string)
    ensures r == "Black" <==> color == Black
    ensures r == "White" <==> color == White
  {
    match color
    case Black => assert "Black"[0] != "White"[0]; "Black"
    case White => assert "White"[0] != "Black"[0]; "White"
  }

  /** The inverse of ColorLabel. */
  function ParseColorLabel(s: string): Option<StoneColor> {
    if s == "Black" then Some(Black)
    else if s == "White" then Some(White)
    else None
  }

  lemma ColorLabelRoundTrip(color: StoneColor)
    ensures ParseColorLabel(ColorLabel(color)) == Some(color)
  {
  }
}

=== FILE: keydialog.dfy ===
/**
 The API-key dialog (app/components/OpenRouterKeyDialog.tsx): the ordered
 validation of a candidate key, the save gate, and the Cancel and Clear
 buttons' state resets. Callbacks are reported in the result instead of
 being called.
 */
module KeyDialog {
  import opened Wrappers
  import opened Text

  const MinKeyLength: nat := 10
  const KeyPrefix: string := "sk-"

  /** Why a key is refused, in the order the checks run. */
  datatype KeyError = MissingKey | WrongPrefix | TooShort

  const MissingKeyMessage: string := "Add your API key so the playground can reach OpenRouter."
  const WrongPrefixMessage: string := "Keys usually start with “sk-”. Double-check the value."
  const TooShortMessage: string := "That key feels a little short—paste the full value."

  /** The message shown for each refusal. */
  function ErrorMessage(e: KeyError): (r: string)
    ensures |r| > 0
  {
    match e
    case MissingKey => MissingKeyMessage
    case WrongPrefix => WrongPrefixMessage
    case TooShort => TooShortMessage
  }

  /** Different refusals show different messages. */
  lemma ErrorMessageInjective(a: KeyError, b: KeyError)
    requires ErrorMessage(a) == ErrorMessage(b)
    ensures a == b
  {
    assert |MissingKeyMessage| == 56 && |WrongPrefixMessage| == 54 && |TooShortMessage| == 51;
  }

  /** `validate(candidate)`: nothing after trimming, then the "sk-" prefix,
      then the minimum length in UTF-16 code units; `None` means valid. */
  function Validate(candidate: string): (r: Option<KeyError>)
    ensures r == Some(MissingKey) <==> AllWhitespace(candidate)
    ensures r == Some(WrongPrefix) <==> Trim(candidate) != "" && !StartsWith(Trim(candidate), KeyPrefix)
    ensures r == Some(TooShort) <==> StartsWith(Trim(candidate), KeyPrefix) && Utf16Length(Trim(candidate)) < MinKeyLength
    ensures r.None? <==> StartsWith(Trim(candidate), KeyPrefix) && Utf16Length(Trim(candidate)) >= MinKeyLength
  {
    var trimmed := Trim(candidate);
    TrimEmptyIffAllWhitespace(candidate);
    if trimmed == "" then Some(MissingKey)
    else if !StartsWith(trimmed, KeyPrefix) then Some(WrongPrefix)
    else if Utf16Length(trimmed) < MinKeyLength then Some(TooShort)
    else None
  }

  /** The prefix check comes first: a short key without the prefix is
      reported as a prefix problem, not as too short. */
  lemma PrefixCheckedBeforeLength()
    ensures Validate("pk-1") == Some(WrongPrefix)
  {
    TrimOfTrimmed("pk-1");
    assert !StartsWith("pk-1", KeyPrefix) by { assert "pk-1"[0] != KeyPrefix[0]; }
  }

  /** Nine characters are too few. */
  lemma NineCharactersTooShort()
    ensures Validate("sk-012345") == Some(TooShort)
  {
    var key := "sk-012345";
    TrimOfTrimmed(key);
    assert StartsWith(key, KeyPrefix) by { assert key[..3] == KeyPrefix; }
    NineUnits();
  }

  /** The nine characters of the example are single code units. */
  lemma NineUnits()
    ensures Utf16Length("sk-012345") == 9
  {
  }

  /** Ten characters are enough. */
  lemma TenCharactersAccepted()
    ensures Validate("sk-0123456") == None
  {
    var key := "sk-0123456";
    TrimOfTrimmed(key);
    assert StartsWith(key, KeyPrefix) by { assert key[..3] == KeyPrefix; }
    Utf16LengthBounds(key);
  }

  // ---------------------------------------------------------------------------
  // Dialog state
  // ---------------------------------------------------------------------------

  datatype Dialog = Dialog(value: string, error: Option<string>)

  /** What a button does: the next dialog state and the callback fired. */
  datatype Callback = NoCallback | Save(key: string) | Cancel | Clear

  datatype Outcome = Outcome(dialog: Dialog, callback: Callback)

  /** The state the component mounts with: `useState(initialValue)` and no
      error. Closing renders nothing but keeps the component mounted, so a
      reopened dialog shows the state it was closed with, not this one. */
  function Mount(initialValue: string): (d: Dialog)
    ensures d.value == initialValue && d.error.None?
  {
    Dialog(initialValue, None)
  }

  /** `handleSave`: the trimmed value is saved exactly when it is valid;
      otherwise the error is shown and nothing is saved. */
  function HandleSave(d: Dialog): (r: Outcome)
    ensures r.callback.Save? <==> Validate(d.value).None?
    ensures r.callback.Save? ==> r.callback.key == Trim(d.value) && r.dialog == d
    ensures !r.callback.Save? ==> r.callback.NoCallback? && r.dialog.value == d.value
                                  && r.dialog.error == Some(ErrorMessage(Validate(d.value).value))
  {
    var trimmed := Trim(d.value);
    TrimIdempotent(d.value);
    match Validate(trimmed)
    case Some(e) => Outcome(d.(error := Some(ErrorMessage(e))), NoCallback)
    case None => Outcome(d, Save(trimmed))
  }

  /** Enter in the input saves; every other key leaves the dialog alone. */
  function HandleKeyDown(d: Dialog, key: string): (r: Outcome)
    ensures key == "Enter" ==> r == HandleSave(d)
    ensures key != "Enter" ==> r == Outcome(d, NoCallback)
  {
    if key == "Enter" then HandleSave(d) else Outcome(d, NoCallback)
  }

  /** The Cancel button: the value returns to the initial value, the error
      is cleared, and `onCancel` fires. */
  function CancelClicked(d: Dialog, initialValue: string): (r: Outcome)
    ensures r.dialog == Mount(initialValue) && r.callback == Cancel
  {
    Outcome(Dialog(initialValue, None), Cancel)
  }

  /** The Clear button: an empty value, no error, and `onClear` fires. */
  function ClearClicked(d: Dialog): (r: Outcome)
    ensures r.dialog.value == "" && r.dialog.error.None? && r.callback == Clear
  {
    Outcome(Dialog("", None), Clear)
  }

  /** A saved key is trimmed, valid, and saves as itself when entered again. */
  lemma SavedKeyIsStable(d: Dialog)
    requires HandleSave(d).callback.Save?
    ensures var key := HandleSave(d).callback.key;
            && IsTrimmed(key) && Validate(key).None?
            && HandleSave(Dialog(key, None)).callback == Save(key)
  {
    TrimIdempotent(d.value);
  }

  /** After Clear, saving is refused with the missing-key message. */
  lemma ClearThenSaveRefused(d: Dialog)
    ensures var cleared := ClearClicked(d).dialog;
            HandleSave(cleared) == Outcome(cleared.(error := Some(MissingKeyMessage)), NoCallback)
  {
  }
}

=== FILE: page.dfy ===
/**
 The page's session state (app/page.tsx): board size, move log and quest
 pipeline, the handlers that change them, the active quest, and the JSON
 body the page posts to the quest-agent route.
 */
module Page {
  import opened Wrappers
  import opened Text
  import opened Go
  import opened Session
  import Quest
  import QuestRoute

  /** `useState(9)`. */
  const InitialBoardSize: int := 9

  datatype PageState = PageState(boardSize: int, moves: seq<LoggedMove>, quest: Quest.Pipeline)

  /** The log numbers its moves 1, 2, 3, ... */
  predicate Valid(s: PageState) {
    WellNumbered(s.moves)
  }

  function Initial(): (s: PageState)
    ensures Valid(s) && s.boardSize == InitialBoardSize && s.moves == [] && NextPlayer(s.moves) == "Black"
  {
    PageState(InitialBoardSize, [], Quest.Initial())
  }

  /** `handleMove`: the move joins the log; nothing else changes. */
  function HandleMove(s: PageState, move: GoMove): (r: PageState)
    ensures r.boardSize == s.boardSize && r.quest == s.quest
    ensures |r.moves| == |s.moves| + 1 && r.moves[..|s.moves|] == s.moves
    ensures Valid(s) ==> Valid(r) && r.moves[|s.moves|].moveNumber == |s.moves| + 1
    ensures NextPlayer(r.moves) != NextPlayer(s.moves)
  {
    PageState(s.boardSize, AppendMove(s.moves, move), s.quest)
  }

  /** `handleReset`: an empty log and a reset quest pipeline. */
  function HandleReset(s: PageState): (r: PageState)
    ensures Valid(r) && r.boardSize == s.boardSize && r.moves == []
    ensures NextPlayer(r.moves) == "Black"
    ensures r.quest.requestRef > s.quest.requestRef && r.quest.activeQuestId.None?
    ensures r.quest.status == Quest.Idle && r.quest.guidance == []
    ensures r.quest == Quest.ResetPipeline(s.quest)
  {
    PageState(s.boardSize, [], Quest.ResetPipeline(s.quest))
  }

  /** `handleBoardSizeChange`: choosing the current size does nothing;
      another size empties the log and resets the quest pipeline. */
  function HandleBoardSizeChange(s: PageState, nextSize: int): (r: PageState)
    ensures nextSize == s.boardSize ==> r == s
    ensures nextSize != s.boardSize ==>
              && Valid(r) && r.boardSize == nextSize && r.moves == []
              && r.quest.requestRef > s.quest.requestRef && r.quest.activeQuestId.None?
              && r.quest.status == Quest.Idle && r.quest.guidance == []
              && r.quest == Quest.ResetPipeline(s.quest)
    ensures Valid(s) ==> Valid(r)
  {
    if nextSize == s.boardSize then s
    else PageState(nextSize, [], Quest.ResetPipeline(s.quest))
  }

  /** `handleQuestSelect`. */
  function HandleQuestSelect(s: PageState, item: InsightItem): (r: PageState)
    ensures r.quest.activeQuestId == Some(item.id) && r.moves == s.moves && r.boardSize == s.boardSize
    ensures r.quest.requestRef == s.quest.requestRef
    ensures r.quest == Quest.SelectQuest(s.quest, item.id)
    ensures r.quest.replayToken == s.quest.replayToken + 1
    ensures r.quest.guidance == s.quest.guidance && r.quest.status == s.quest.status
  {
    s.(quest := Quest.SelectQuest(s.quest, item.id))
  }

  /** `activeQuest`: the offered quest whose id is the selected one, if it
      is still offered. */
  function ActiveQuest(s: PageState): (r: Option<InsightItem>)
    ensures r.Some? ==> r.value in QuestItems(s.boardSize, s.moves) && Some(r.value.id) == s.quest.activeQuestId
    ensures r.Some? <==> s.quest.activeQuestId.Some?
                         && exists k :: 0 <= k < 3 && QuestItems(s.boardSize, s.moves)[k].id == s.quest.activeQuestId.value
    ensures r.Some? ==> |r.value.heading| > 0
  {
    var items := QuestItems(s.boardSize, s.moves);
    FindItem(items, s.quest.activeQuestId)
  }

  // ---------------------------------------------------------------------------
  // The request body sent to the route
  // ---------------------------------------------------------------------------

  function RouteMoveOf(m: LoggedMove): QuestRoute.RouteMove {
    QuestRoute.RouteMove(m.row, m.column, m.color, Some(m.moveNumber))
  }

  function RouteMoves(moves: seq<LoggedMove>): (r: seq<QuestRoute.RouteMove>)
    ensures |r| == |moves| && forall k :: 0 <= k < |moves| ==> r[k] == RouteMoveOf(moves[k])
  {
    if |moves| == 0 then [] else [RouteMoveOf(moves[0])] + RouteMoves(moves[1..])
  }

  /** The body of the page's `POST /api/quest-agent`: board size, player to
      move, the active quest with `detail ?? ""`, and every logged move with
      its number. */
  function RequestBody(s: PageState, quest: InsightItem): (r: QuestRoute.Payload)
    ensures r.boardSize == Some(s.boardSize) && r.nextPlayer == NextPlayer(s.moves)
    ensures r.quest == Some(QuestRoute.QuestPayload(Some(quest.id), Some(quest.heading), Some(quest.detail.GetOr(""))))
    ensures r.moves.Some? && |r.moves.value| == |s.moves|
    ensures forall k :: 0 <= k < |s.moves| ==>
              var m := r.moves.value[k];
              m.row == s.moves[k].row && m.column == s.moves[k].column && m.color == s.moves[k].color
              && m.moveNumber == Some(s.moves[k].moveNumber)
  {
    QuestRoute.Payload(
      Some(s.boardSize),
      NextPlayer(s.moves),
      Some(RouteMoves(s.moves)),
      Some(QuestRoute.QuestPayload(Some(quest.id), Some(quest.heading), Some(quest.detail.GetOr("")))))
  }

  /** The page only ever sends what the route accepts: on any positive board
      size, the active quest's request passes validation once the key is
      configured. */
  lemma PageRequestAccepted(s: PageState, apiKey: string)
    requires s.boardSize >= 1 && ActiveQuest(s).Some? && apiKey != ""
    ensures QuestRoute.Validate(QuestRoute.Object(RequestBody(s, ActiveQuest(s).value)), Some(apiKey)).Accept?
  {
    var quest := ActiveQuest(s).value;
    var body := RequestBody(s, quest);
    assert body.quest.value.heading == Some(quest.heading) && quest.heading != "";
    assert QuestRoute.Truthy(body.quest.value.heading);
    assert body.boardSize == Some(s.boardSize);
  }

  /** The route numbers the summary lines with the page's own move numbers,
      which are the positions in the log counted from 1. */
  lemma SummaryNumbersFollowLog(s: PageState, quest: InsightItem)
    requires Valid(s)
    ensures var moves := RequestBody(s, quest).moves.value;
            forall k :: 0 <= k < |moves| ==> QuestRoute.SummaryNumber(moves[k], k) == k + 1
  {
  }

  // ---------------------------------------------------------------------------
  // The page as an event system
  // ---------------------------------------------------------------------------

  datatype Event =
    | Move(move: GoMove)               // the board reported a stone
    | ResetClicked                     // the board's reset button
    | SizeChosen(size: int)            // the resize select
    | QuestClicked(item: InsightItem)  // a quest in the panel
    | EffectRuns                       // the active-quest effect fires
    | Arrive(requestId: nat, outcome: Quest.Outcome)

  function Step(s: PageState, e: Event): (r: PageState)
    ensures Valid(s) ==> Valid(r)
    ensures r.quest.requestRef >= s.quest.requestRef
  {
    match e
    case Move(m) => HandleMove(s, m)
    case ResetClicked => HandleReset(s)
    case SizeChosen(n) => HandleBoardSizeChange(s, n)
    case QuestClicked(item) => HandleQuestSelect(s, item)
    case EffectRuns => s.(quest := Quest.QuestEffect(s.quest, ActiveQuest(s)).0)
    case Arrive(id, o) => s.(quest := Quest.Complete(s.quest, id, o))
  }

  function Run(s: PageState, events: seq<Event>): PageState
    decreases |events|
  {
    if |events| == 0 then s else Run(Step(s, events[0]), events[1..])
  }

  /** Whatever the user does, the log stays numbered 1, 2, 3, ... */
  lemma {:induction false} RunKeepsValid(s: PageState, events: seq<Event>)
    requires Valid(s)
    ensures Valid(Run(s, events))
    decreases |events|
  {
    if |events| > 0 {
      RunKeepsValid(Step(s, events[0]), events[1..]);
    }
  }

  lemma {:induction false} RunKeepsCounter(s: PageState, events: seq<Event>)
    ensures Run(s, events).quest.requestRef >= s.quest.requestRef
    decreases |events|
  {
    if |events| > 0 {
      RunKeepsCounter(Step(s, events[0]), events[1..]);
    }
  }

  /** A response to a request sent before a reset or a size change is
      ignored, whatever happens in between. */
  lemma ResetDiscardsLateResponse(s: PageState, e: Event, events: seq<Event>, requestId: nat, outcome: Quest.Outcome)
    requires e.ResetClicked? || (e.SizeChosen? && e.size != s.boardSize)
    requires requestId <= s.quest.requestRef
    ensures var t := Run(Step(s, e), events);
            Step(t, Arrive(requestId, outcome)) == t
  {
    RunKeepsCounter(Step(s, e), events);
  }
}

=== FILE: playground.dfy ===
/**
 The page and its board together (app/page.tsx mounting
 app/components/GoBoard.tsx): a click on a cell goes through the board's
 `placeStone` and, when accepted, through the page's `handleMove`; the reset
 button goes through `resetBoard` and `handleReset`; the resize select goes
 through `handleBoardSizeChange`, and a new size remounts the board (its
 `key` is the page's board size).
 */
module Playground {
  import opened Wrappers
  import opened Go
  import opened Session
  import Board
  import Page

  /** The sizes the resize select offers. */
  predicate Offered(size: int) {
    size == 9 || size == 13 || size == 19
  }

  datatype Playground = Playground(page: Page.PageState, board: Board.Board)

  datatype Action = Click(index: int) | ResetClick | ChooseSize(size: int)

  /** The size the mounted board uses, as the page is written: the page
      passes its size as a `boardSize` prop, which the board does not
      declare, so the board's `size` keeps its default. */
  function MountedSizeAsWritten(pageSize: int): (r: nat)
    ensures r == Board.DefaultSize
  {
    Board.DefaultSize
  }

  /** The size the mounted board uses once the page passes its size as the
      board's `size` prop. */
  function MountedSize(pageSize: nat): nat {
    pageSize
  }

  /** The board and the page agree: same size; the turn on the board is the
      turn the move count implies; there are as many stones as logged
      moves; logged colours alternate from black; and every logged move's
      cell holds its stone. */
  predicate Consistent(p: Playground) {
    var moves := p.page.moves;
    var b := p.board;
    && Board.Valid(b) && Page.Valid(p.page)
    && b.size == p.page.boardSize
    && b.currentPlayer == ParityColor(|moves|)
    && Board.CountColor(b.stones, Black) + Board.CountColor(b.stones, White) == |moves|
    && (forall k :: 0 <= k < |moves| ==> moves[k].color == ParityColor(k))
    && (forall k :: 0 <= k < |moves| ==> OnBoard(moves[k], b))
  }

  /** A logged move lies on the board and its cell holds its colour. */
  predicate OnBoard(m: LoggedMove, b: Board.Board) {
    && 0 <= m.row < b.size && 0 <= m.column < b.size
    && 0 <= m.row * b.size + m.column < |b.stones|
    && b.stones[m.row * b.size + m.column] == Some(m.color)
  }

  function Initial(): (p: Playground)
    ensures Consistent(p) && p.page.boardSize == 9 && p.page.moves == []
  {
    var b := Board.Initial(9);
    Board.CountColorNone(b.stones, Black);
    Board.CountColorNone(b.stones, White);
    Playground(Page.Initial(), b)
  }

  /** One user action under the corrected mounting. */
  function Step(p: Playground, a: Action): (r: Playground)
    requires Consistent(p)
    requires a.Click? ==> 0 <= a.index < |p.board.stones|
    requires a.ChooseSize? ==> Offered(a.size)
    ensures Consistent(r)
    ensures a.Click? && p.board.stones[a.index].Some? ==> r == p
    ensures a.Click? && p.board.stones[a.index].None? ==> |r.page.moves| == |p.page.moves| + 1
    ensures a.ResetClick? || (a.ChooseSize? && a.size != p.page.boardSize) ==>
              r.page.moves == [] && r.board.currentPlayer == Black
              && r.page.quest.requestRef > p.page.quest.requestRef
  {
    match a
    case Click(index) =>
      var placed := Board.PlaceStone(p.board, index);
      var page := if placed.emitted.Some? then Page.HandleMove(p.page, placed.emitted.value) else p.page;
      var r := Playground(page, placed.board);
      ClickKeepsConsistent(p, index);
      r
    case ResetClick =>
      var r := Playground(Page.HandleReset(p.page), Board.ResetBoard(p.board));
      Board.CountColorNone(r.board.stones, Black);
      Board.CountColorNone(r.board.stones, White);
      r
    case ChooseSize(n) =>
      if n == p.page.boardSize then p
      else
        var r := Playground(Page.HandleBoardSizeChange(p.page, n), Board.Initial(MountedSize(n)));
        Board.CountColorNone(r.board.stones, Black);
        Board.CountColorNone(r.board.stones, White);
        r
  }

  /** An accepted click adds the move to the log and the stone to the
      board in step; an ignored click changes neither. */
  lemma ClickKeepsConsistent(p: Playground, index: int)
    requires Consistent(p) && 0 <= index < |p.board.stones|
    ensures var placed := Board.PlaceStone(p.board, index);
            var page := if placed.emitted.Some? then Page.HandleMove(p.page, placed.emitted.value) else p.page;
            Consistent(Playground(page, placed.board))
  {
    var b := p.board;
    var moves := p.page.moves;
    var placed := Board.PlaceStone(b, index);
    Board.PlaceStonePreservesValid(b, index);
    Board.PlaceStoneAddsOneStone(b, index);
    if placed.emitted.Some? {
      var m := placed.emitted.value;
      var page := Page.HandleMove(p.page, m);
      var next := page.moves;
      assert next[..|moves|] == moves;
      forall k | 0 <= k < |next|
        ensures next[k].color == ParityColor(k) && OnBoard(next[k], placed.board)
      {
        if k < |moves| {
          assert next[k] == moves[k];
          assert OnBoard(moves[k], b);
        } else {
          assert next[k].row == m.row && next[k].column == m.column && next[k].color == m.color;
        }
      }
    }
  }

  function Run(p: Playground, actions: seq<Action>): (r: Playground)
    requires Consistent(p)
    requires forall k :: 0 <= k < |actions| ==> Allowed(actions[k])
    ensures Consistent(r)
    decreases |actions|
  {
    if |actions| == 0 then p
    else
      var a := actions[0];
      assert Allowed(a);
      if a.Click? && !(0 <= a.index < |p.board.stones|) then Run(p, actions[1..])
      else Run(Step(p, a), actions[1..])
  }

  /** Clicks name any index (clicks outside the board are dropped by Run);
      size changes come from the select. */
  predicate Allowed(a: Action) {
    a.ChooseSize? ==> Offered(a.size)
  }

  /** The page's "next to play" is the board's colour to play, whatever the
      user has done. */
  lemma NextPlayerMatchesBoard(p: Playground, actions: seq<Action>)
    requires Consistent(p)
    requires forall k :: 0 <= k < |actions| ==> Allowed(actions[k])
    ensures var r := Run(p, actions);
            NextPlayer(r.page.moves) == ColorLabel(r.board.currentPlayer)
            && (r.board.currentPlayer == Black <==> |r.page.moves| % 2 == 0)
  {
    var r := Run(p, actions);
    assert r.board.currentPlayer == ParityColor(|r.page.moves|);
  }

  // ---------------------------------------------------------------------------
  // As written: the board ignores the page's size
  // ---------------------------------------------------------------------------

  /** What still holds as the page is written, whatever size the board has:
      the board's turn is the turn the log's length implies, and the board
      holds as many stones as the log has moves. */
  predicate TurnAgrees(p: Playground) {
    var moves := p.page.moves;
    var b := p.board;
    && Board.Valid(b) && Page.Valid(p.page)
    && b.currentPlayer == ParityColor(|moves|)
    && Board.CountColor(b.stones, Black) + Board.CountColor(b.stones, White) == |moves|
  }

  /** A size choice as the page is written: the page records the new size
      and resets, and the remounted board again has the default size. The
      log and the board are emptied together, so their turns still agree. */
  function ChooseSizeAsWritten(p: Playground, n: int): (r: Playground)
    requires TurnAgrees(p)
    ensures TurnAgrees(r)
    ensures n != p.page.boardSize ==>
              r.page.boardSize == n && r.board.size == Board.DefaultSize && r.page.moves == []
  {
    if n == p.page.boardSize then p
    else
      var r := Playground(Page.HandleBoardSizeChange(p.page, n), Board.Initial(MountedSizeAsWritten(n)));
      Board.CountColorNone(r.board.stones, Black);
      Board.CountColorNone(r.board.stones, White);
      r
  }

  /** One user action as the page is written: clicks and the reset button
      as under `Step`, size choices through `ChooseSizeAsWritten`. */
  function StepAsWritten(p: Playground, a: Action): (r: Playground)
    requires TurnAgrees(p)
    requires a.Click? ==> 0 <= a.index < |p.board.stones|
    ensures TurnAgrees(r)
    ensures a.Click? && p.board.stones[a.index].Some? ==> r == p
    ensures a.Click? && p.board.stones[a.index].None? ==> |r.page.moves| == |p.page.moves| + 1
  {
    match a
    case Click(index) =>
      var placed := Board.PlaceStone(p.board, index);
      Board.PlaceStonePreservesValid(p.board, index);
      Board.PlaceStoneAddsOneStone(p.board, index);
      var page := if placed.emitted.Some? then Page.HandleMove(p.page, placed.emitted.value) else p.page;
      Playground(page, placed.board)
    case ResetClick =>
      var r := Playground(Page.HandleReset(p.page), Board.ResetBoard(p.board));
      Board.CountColorNone(r.board.stones, Black);
      Board.CountColorNone(r.board.stones, White);
      r
    case ChooseSize(n) => ChooseSizeAsWritten(p, n)
  }

  function RunAsWritten(p: Playground, actions: seq<Action>): (r: Playground)
    requires TurnAgrees(p)
    ensures TurnAgrees(r)
    decreases |actions|
  {
    if |actions| == 0 then p
    else
      var a := actions[0];
      if a.Click? && !(0 <= a.index < |p.board.stones|) then RunAsWritten(p, actions[1..])
      else RunAsWritten(StepAsWritten(p, a), actions[1..])
  }

  /** Even as written, with the board ignoring the chosen size, the page's
      "next to play" is the board's colour to play after any sequence of
      actions: every reset empties the log and the board together. */
  lemma NextPlayerMatchesBoardAsWritten(p: Playground, actions: seq<Action>)
    requires TurnAgrees(p)
    ensures var r := RunAsWritten(p, actions);
            NextPlayer(r.page.moves) == ColorLabel(r.board.currentPlayer)
            && (r.board.currentPlayer == Black <==> |r.page.moves| % 2 == 0)
  {
    var r := RunAsWritten(p, actions);
    assert r.board.currentPlayer == ParityColor(|r.page.moves|);
  }

  /** The as-written page starts in agreement. */
  lemma InitialTurnAgrees()
    ensures TurnAgrees(Initial())
  {
  }

  /** Choosing 19×19 leaves the page announcing a 19×19 board while the
      board offers 81 cells, and the page and the board no longer agree. */
  lemma SizeChoiceIgnoredAsWritten()
    ensures var r := ChooseSizeAsWritten(Initial(), 19);
            && r.page.boardSize == 19 && r.board.size == 9 && |r.board.stones| == 81
            && !Consistent(r)
  {
  }

  /** With the size passed through, the same choice gives a 19×19 board. */
  lemma SizeChoiceHonoured()
    ensures var r := Step(Initial(), ChooseSize(19));
            && r.page.boardSize == 19 && r.board.size == 19 && |r.board.stones| == 361
            && Consistent(r)
  {
  }
}

=== FILE: quest.dfy ===
/**
 The page's quest-agent pipeline (app/page.tsx): the selected quest, the
 guidance lines, the status shown beside the panel, and the request counter
 that decides which response may publish. The asynchronous `fetch` becomes
 two explicit events: starting request `id`, and completing request `id` with
 an outcome supplied by the environment.
 */
module Quest {
  import opened Wrappers
  import opened Text
  import opened Session

  datatype Status = Idle | Loading | Ready | Error

  /** Why a request is sent: a new or replayed quest clears the guidance
      first, a board change refreshes it in place. */
  datatype Reason = QuestChange | BoardChange

  datatype Pipeline = Pipeline(
    activeQuestId: Option<string>,
    replayToken: nat,
    guidance: seq<string>,
    status: Status,
    error: Option<string>,
    requestRef: nat,        // questRequestRef: the id of the newest request
    lastQuestId: Option<string>,
    replayRef: nat)

  /** The JSON body the route answers with on success. */
  datatype AgentResponse = AgentResponse(suggestions: Option<seq<string>>, raw: Option<string>)

  /** How a request ends: the route answered with a success body, or the
      fetch, the status check or the body parse threw. */
  datatype Outcome = Succeeded(data: AgentResponse) | Failed

  const UnavailableMessage: string := "The quest agent is unavailable right now. Try again in a moment."
  const NoSuggestionsMessage: string := "The quest agent didn't return suggestions this time. Try another move or refresh the quest."

  function Initial(): (p: Pipeline)
    ensures p.status == Idle && p.guidance == [] && p.activeQuestId.None? && p.requestRef == 0
  {
    Pipeline(None, 0, [], Idle, None, 0, None, 0)
  }

  /** `resetQuestPipeline`: forget the quest and its guidance and advance the
      request counter past every request already sent. */
  function ResetPipeline(p: Pipeline): (r: Pipeline)
    ensures r.requestRef > p.requestRef
    ensures r.status == Idle && r.guidance == [] && r.error.None?
    ensures r.activeQuestId.None? && r.lastQuestId.None? && r.replayToken == 0 && r.replayRef == 0
  {
    Pipeline(None, 0, [], Idle, None, p.requestRef + 1, None, 0)
  }

  /** `handleQuestSelect`: select a quest and bump the replay token, so that
      selecting the same quest again still counts as a change. */
  function SelectQuest(p: Pipeline, id: string): (r: Pipeline)
    ensures r.activeQuestId == Some(id) && r.replayToken == p.replayToken + 1
    ensures r.requestRef == p.requestRef && r.guidance == p.guidance && r.status == p.status
    ensures r.error == p.error && r.lastQuestId == p.lastQuestId && r.replayRef == p.replayRef
  {
    p.(activeQuestId := Some(id), replayToken := p.replayToken + 1)
  }

  /** `sendQuestAgentUpdate` up to the `fetch`: nothing without an active
      quest; otherwise a fresh request id, guidance cleared on a quest
      change, status loading. Returns the id of the request sent. */
  function SendUpdate(p: Pipeline, activeQuest: Option<InsightItem>, reason: Reason): (r: (Pipeline, Option<nat>))
    ensures activeQuest.None? ==> r == (p, None)
    ensures activeQuest.Some? ==> && r.1 == Some(r.0.requestRef)
                                  && r.0.requestRef == p.requestRef + 1
                                  && r.0.status == Loading && r.0.error.None?
                                  && r.0.guidance == (if reason == QuestChange then [] else p.guidance)
    ensures r.0.activeQuestId == p.activeQuestId && r.0.replayToken == p.replayToken
    ensures r.0.lastQuestId == p.lastQuestId && r.0.replayRef == p.replayRef
  {
    if activeQuest.None? then (p, None)
    else
      var requestId := p.requestRef + 1;
      var cleared := if reason == QuestChange then [] else p.guidance;
      (p.(requestRef := requestId, guidance := cleared, status := Loading, error := None), Some(requestId))
  }

  /** The effect that follows the active quest: with no active quest the
      panel returns to idle; otherwise a request is sent, as a quest change
      when the quest id or the replay token moved since the last run. */
  function QuestEffect(p: Pipeline, activeQuest: Option<InsightItem>): (r: (Pipeline, Option<nat>))
    ensures activeQuest.None? ==> && r.1.None? && r.0.status == Idle && r.0.guidance == []
                                  && r.0.requestRef == p.requestRef && r.0.error.None?
                                  && r.0.lastQuestId.None? && r.0.replayRef == p.replayToken
    ensures activeQuest.Some? ==> && r.1 == Some(p.requestRef + 1) && r.0.status == Loading
                                  && r.0.requestRef == p.requestRef + 1 && r.0.error.None?
                                  && r.0.lastQuestId == Some(activeQuest.value.id)
                                  && r.0.replayRef == p.replayToken
    ensures r.0.activeQuestId == p.activeQuestId && r.0.replayToken == p.replayToken
    ensures (activeQuest.Some? && p.lastQuestId == Some(activeQuest.value.id) && p.replayRef == p.replayToken)
            ==> r.0.guidance == p.guidance
    ensures (activeQuest.Some? && (p.lastQuestId != Some(activeQuest.value.id) || p.replayRef != p.replayToken))
            ==> r.0.guidance == []
  {
    if activeQuest.None? then
      (p.(status := Idle, guidance := [], error := None, lastQuestId := None, replayRef := p.replayToken), None)
    else
      var quest := activeQuest.value;
      var questChanged := p.lastQuestId != Some(quest.id);
      var tokenChanged := p.replayRef != p.replayToken;
      var p' := p.(lastQuestId := Some(quest.id), replayRef := p.replayToken);
      SendUpdate(p', activeQuest, if questChanged || tokenChanged then QuestChange else BoardChange)
  }

  /** Selecting the quest that is already active still clears its guidance:
      the replay token moves, so the effect that follows sees a change. */
  lemma ReselectClearsGuidance(p: Pipeline, q: InsightItem)
    ensures var first := QuestEffect(p, Some(q)).0;
            QuestEffect(SelectQuest(first, q.id), Some(q)).0.guidance == []
  {
  }

  /** Without the selection the same effect refreshes in place and keeps the
      guidance: it is the token, not the effect, that forces the clear. */
  lemma RerunKeepsGuidance(p: Pipeline, q: InsightItem)
    ensures var first := QuestEffect(p, Some(q)).0;
            QuestEffect(first, Some(q)).0.guidance == first.guidance
  {
  }

  /** As the page is written, the effect's no-quest branch sets the panel
      idle but leaves the request counter alone, so a request sent for a
      quest that has since vanished still publishes when it lands: the
      status reads ready while no quest is active. */
  lemma VanishedQuestStillPublishes(p: Pipeline, q: InsightItem, data: AgentResponse)
    ensures var sent := QuestEffect(p, Some(q));
            var idle := QuestEffect(sent.0, None).0;
            var late := Complete(idle, sent.1.value, Succeeded(data));
            && idle.status == Idle && idle.guidance == []
            && late.status == Ready && late.guidance == ChooseGuidance(data) && late.guidance != []
  {
  }

  /** `entries.map(entry => entry?.trim())`. */
  function TrimAll(entries: seq<string>): (r: seq<string>)
    ensures |r| == |entries| && forall k :: 0 <= k < |entries| ==> r[k] == Trim(entries[k])
    ensures forall x :: x in r ==> IsTrimmed(x)
  {
    if |entries| == 0 then [] else [Trim(entries[0])] + TrimAll(entries[1..])
  }

  /** The guidance when no suggestion survives: the trimmed raw text if it
      is not blank, else a fixed note. */
  function RawOrNote(raw: Option<string>): (r: seq<string>)
    ensures |r| == 1 && |r[0]| > 0
    ensures raw.Some? && Trim(raw.value) != "" ==> r == [Trim(raw.value)]
    ensures !(raw.Some? && Trim(raw.value) != "") ==> r == [NoSuggestionsMessage]
  {
    if raw.Some? && |Trim(raw.value)| > 0 then [Trim(raw.value)] else [NoSuggestionsMessage]
  }

  /** The guidance a successful response installs: the trimmed non-empty
      suggestions if any, else the trimmed raw text, else a fixed note. */
  function ChooseGuidance(data: AgentResponse): (r: seq<string>)
    ensures |r| > 0 && forall k :: 0 <= k < |r| ==> r[k] != ""
    ensures r == [NoSuggestionsMessage] || forall x :: x in r ==> IsTrimmed(x)
    ensures var trimmed := TrimAll(data.suggestions.GetOr([]));
            (exists x :: x in trimmed && x != "") ==> forall x :: x in r <==> x in trimmed && x != ""
    ensures var trimmed := TrimAll(data.suggestions.GetOr([]));
            DropEmpty(trimmed) != [] ==> r == DropEmpty(trimmed)
    ensures (forall x :: x in TrimAll(data.suggestions.GetOr([])) ==> x == "") ==> r == RawOrNote(data.raw)
  {
    var trimmed := TrimAll(data.suggestions.GetOr([]));
    var parsed := DropEmpty(trimmed);
    if |parsed| > 0 then
      assert parsed[0] in trimmed;
      parsed
    else
      RawOrNote(data.raw)
  }

  /** A response arriving for request `requestId`: ignored unless it is still
      the newest request; then a success installs guidance and `ready`, a
      failure sets `error` and the unavailable message. */
  function Complete(p: Pipeline, requestId: nat, outcome: Outcome): (r: Pipeline)
    ensures requestId != p.requestRef ==> r == p
    ensures r.requestRef == p.requestRef && r.activeQuestId == p.activeQuestId
    ensures r.lastQuestId == p.lastQuestId && r.replayRef == p.replayRef && r.replayToken == p.replayToken
    ensures requestId == p.requestRef && outcome.Succeeded? ==>
              r.status == Ready && |r.guidance| > 0 && r.guidance == ChooseGuidance(outcome.data)
              && r.error == p.error
    ensures requestId == p.requestRef && outcome.Failed? ==>
              r.status == Error && r.error == Some(UnavailableMessage) && r.guidance == p.guidance
  {
    if p.requestRef != requestId then p
    else match outcome
      case Succeeded(data) => p.(guidance := ChooseGuidance(data), status := Ready)
      case Failed => p.(status := Error, error := Some(UnavailableMessage))
  }

  /** `questStatusLabel`. */
  function StatusLabel(s: Status): string {
    match s
    case Loading => "Listening"
    case Ready => "Responded"
    case Error => "Offline"
    case Idle => "Idle"
  }

  function ParseStatusLabel(s: string): Option<Status> {
    if s == "Listening" then Some(Loading)
    else if s == "Responded" then Some(Ready)
    else if s == "Offline" then Some(Error)
    else if s == "Idle" then Some(Idle)
    else None
  }

  /** Every status has its own label. */
  lemma StatusLabelRoundTrip(s: Status)
    ensures ParseStatusLabel(StatusLabel(s)) == Some(s)
  {
    assert "Listening"[0] == 'L' && "Responded"[0] == 'R' && "Offline"[0] == 'O' && "Idle"[0] == 'I';
  }

  // ---------------------------------------------------------------------------
  // The pipeline as an event system
  // ---------------------------------------------------------------------------

  datatype Event =
    | Select(id: string)                      // a quest is clicked
    | RunEffect(activeQuest: Option<InsightItem>) // the quest effect runs
    | Reset                                   // resetQuestPipeline
    | Arrive(requestId: nat, outcome: Outcome) // a response or error lands

  function Step(p: Pipeline, e: Event): (r: Pipeline)
    ensures r.requestRef >= p.requestRef
  {
    match e
    case Select(id) => SelectQuest(p, id)
    case RunEffect(q) => QuestEffect(p, q).0
    case Reset => ResetPipeline(p)
    case Arrive(id, o) => Complete(p, id, o)
  }

  function Run(p: Pipeline, events: seq<Event>): Pipeline
    decreases |events|
  {
    if |events| == 0 then p else Run(Step(p, events[0]), events[1..])
  }

  /** The request counter never goes back, so an id that is already stale
      stays stale whatever happens next. */
  lemma {:induction false} StaleStaysStale(p: Pipeline, events: seq<Event>, requestId: nat)
    requires requestId < p.requestRef
    ensures requestId < Run(p, events).requestRef
    decreases |events|
  {
    if |events| > 0 {
      StaleStaysStale(Step(p, events[0]), events[1..], requestId);
    }
  }

  /** Once request `requestId` has been superseded, by a newer request or by
      a reset, its late response changes nothing. */
  lemma SupersededResponseDiscarded(p: Pipeline, events: seq<Event>, requestId: nat, outcome: Outcome)
    requires requestId < p.requestRef
    ensures Complete(Run(p, events), requestId, outcome) == Run(p, events)
  {
    StaleStaysStale(p, events, requestId);
  }

  /** A reset discards every response to a request sent before it. */
  lemma ResetDiscardsInFlight(p: Pipeline, requestId: nat, outcome: Outcome)
    requires requestId <= p.requestRef
    ensures Complete(ResetPipeline(p), requestId, outcome) == ResetPipeline(p)
  {
  }

  /** Two requests in a row: only the second may publish. */
  lemma OnlyNewestPublishes(p: Pipeline, q1: InsightItem, q2: InsightItem, outcome: Outcome)
    ensures var (p1, id1) := QuestEffect(p, Some(q1));
            var (p2, id2) := QuestEffect(p1, Some(q2));
            && id1.Some? && id2.Some? && id1.value < id2.value
            && Complete(p2, id1.value, outcome) == p2
            && Complete(p2, id2.value, outcome).status in {Ready, Error}
  {
  }
}

=== FILE: route.dfy ===
/**
 The quest-agent HTTP route (app/api/quest-agent/route.ts): request
 validation in order, the prompt sent upstream, the board summary, reading
 the completion's message content, and turning that content into at most a
 few suggestions. The request body parser, the environment's API key, the
 upstream `fetch` and `JSON.parse` are inputs: the model receives what they
 produced.
 */
module QuestRoute {
  import opened Wrappers
  import opened Text
  import opened Go

  // ---------------------------------------------------------------------------
  // Request and response shapes
  // ---------------------------------------------------------------------------

  datatype RouteMove = RouteMove(row: int, column: int, color: StoneColor, moveNumber: Option<int>)

  datatype QuestPayload = QuestPayload(id: Option<string>, heading: Option<string>, detail: Option<string>)

  datatype Payload = Payload(
    boardSize: Option<int>,
    nextPlayer: string,
    moves: Option<seq<RouteMove>>,
    quest: Option<QuestPayload>)

  /** What `request.json()` produced: a parse failure, a value without a
      `quest` property (null, a primitive), or an object. */
  datatype Body = Unparseable | NotAnObject | Object(payload: Payload)

  datatype ResponseBody = ErrorBody(message: string) | SuggestionsBody(suggestions: seq<string>, raw: string)

  datatype Response = Response(status: int, body: ResponseBody)

  /** One part of an array-valued message content. */
  datatype ContentPart = PartString(s: string) | PartObject(text: Option<string>) | PartNull

  datatype Content = TextContent(s: string) | PartsContent(parts: seq<ContentPart>)

  datatype Choice = Choice(content: Option<Content>)   // choice.message?.content

  datatype Completion = Completion(choices: Option<seq<Choice>>)

  /** How the upstream call ended: it threw, it answered with a non-ok
      status, or it answered ok with a body that did or did not parse. */
  datatype Upstream = FetchThrew | NotOk | Ok(completion: Option<Completion>)

  /** An element of a parsed `suggestions` array: a string, or any other
      value together with its `String(value)` rendering. */
  datatype JsonEntry = JString(s: string) | JOther(rendered: string)

  /** What `JSON.parse(trimmed).suggestions` yielded: parsing or the property
      access threw, the property is not an array, or it is one. */
  datatype JsonSuggestions = Threw | NotAnArray | AnArray(entries: seq<JsonEntry>)

  const InvalidBody: string := "Invalid request body."
  const HeadingRequired: string := "Quest heading is required."
  const BoardSizeRequired: string := "Board size must be provided."
  const NotConfigured: string := "Quest agent is not configured."
  const UpstreamFailed: string := "Quest agent request failed."
  const PipelineFailed: string := "Quest agent request could not be completed."

  // ---------------------------------------------------------------------------
  // Validation
  // ---------------------------------------------------------------------------

  /** A request that passed every check, with the values the checks read. */
  datatype Accepted = Accepted(payload: Payload, heading: string, boardSize: int, apiKey: string)

  datatype Validation = Reject(response: Response) | Accept(request: Accepted)

  predicate Truthy(s: Option<string>) {
    s.Some? && s.value != ""
  }

  /** The checks before any upstream call, in source order: body parses,
      quest heading present, board size present and at least 1, API key
      configured. */
  function Validate(body: Body, apiKey: Option<string>): (r: Validation)
    ensures body.Unparseable? ==> r == Reject(Response(400, ErrorBody(InvalidBody)))
    ensures (body.NotAnObject? || (body.Object? && !(body.payload.quest.Some? && Truthy(body.payload.quest.value.heading))))
            ==> r == Reject(Response(400, ErrorBody(HeadingRequired)))
    ensures r.Accept? <==>
              && body.Object?
              && body.payload.quest.Some? && Truthy(body.payload.quest.value.heading)
              && body.payload.boardSize.Some? && body.payload.boardSize.value >= 1
              && Truthy(apiKey)
    ensures body.Object? && body.payload.quest.Some? && Truthy(body.payload.quest.value.heading)
            && !(body.payload.boardSize.Some? && body.payload.boardSize.value >= 1)
            ==> r == Reject(Response(400, ErrorBody(BoardSizeRequired)))
    ensures body.Object? && body.payload.quest.Some? && Truthy(body.payload.quest.value.heading)
            && body.payload.boardSize.Some? && body.payload.boardSize.value >= 1 && !Truthy(apiKey)
            ==> r == Reject(Response(500, ErrorBody(NotConfigured)))
    ensures r.Reject? ==> r.response.status in {400, 500}
    ensures r.Reject? && r.response.status == 500 ==>
              body.Object? && body.payload.boardSize.Some? && body.payload.boardSize.value >= 1
    ensures r.Accept? ==> r.request.boardSize >= 1 && r.request.heading != "" && r.request.apiKey != ""
  {
    match body
    case Unparseable => Reject(Response(400, ErrorBody(InvalidBody)))
    case NotAnObject => Reject(Response(400, ErrorBody(HeadingRequired)))
    case Object(payload) =>
      if !(payload.quest.Some? && Truthy(payload.quest.value.heading)) then
        Reject(Response(400, ErrorBody(HeadingRequired)))
      else if payload.boardSize.None? || payload.boardSize.value < 1 then
        Reject(Response(400, ErrorBody(BoardSizeRequired)))
      else if !Truthy(apiKey) then
        Reject(Response(500, ErrorBody(NotConfigured)))
      else
        Accept(Accepted(payload, payload.quest.value.heading.value, payload.boardSize.value, apiKey.value))
  }

  // ---------------------------------------------------------------------------
  // Board summary
  // ---------------------------------------------------------------------------

  /** `moveNumber ?? index + 1`. */
  function SummaryNumber(move: RouteMove, index: nat): int {
    move.moveNumber.GetOr(index + 1)
  }

  /** One summary line: "n. Colour → Coordinate". */
  function SummaryLine(move: RouteMove, index: nat): string {
    IntToString(SummaryNumber(move, index)) + ". " + ColorLabel(move.color) + " → "
      + FormatCoordinate(move.row, move.column)
  }

  /** `moves.map((move, index) => ...)`, with `offset` the index of the
      first element. */
  function SummaryLines(moves: seq<RouteMove>, offset: nat): (r: seq<string>)
    ensures |r| == |moves|
    ensures forall k :: 0 <= k < |moves| ==> r[k] == SummaryLine(moves[k], offset + k)
  {
    seq(|moves|, k requires 0 <= k < |moves| => SummaryLine(moves[k], offset + k))
  }

  function SizeText(boardSize: int): string {
    IntToString(boardSize) + "×" + IntToString(boardSize)
  }

  function EmptyBoardSentence(boardSize: int): string {
    "Board state: a " + SizeText(boardSize) + " grid with no stones yet."
  }

  function SummaryHeader(boardSize: int, count: nat): string {
    "Board state on a " + SizeText(boardSize) + " board after " + IntToString(count) + " move(s):"
  }

  /** `buildBoardSummary`: a single sentence for an empty log; otherwise the
      header on a line of its own, followed by the move lines. */
  function BuildBoardSummary(moves: seq<RouteMove>, boardSize: int): (r: string)
    ensures |moves| == 0 ==> r == EmptyBoardSentence(boardSize)
    ensures |moves| > 0 ==> StartsWith(r, SummaryHeader(boardSize, |moves|) + "\n")
    ensures '\n' in r <==> |moves| > 0
  {
    if |moves| == 0 then
      EmptySentenceIsOneLine(boardSize);
      EmptyBoardSentence(boardSize)
    else
      var head := SummaryHeader(boardSize, |moves|) + "\n";
      var r := head + Join(SummaryLines(moves, 0), "\n");
      assert r[..|head|] == head && r[|head| - 1] == '\n';
      r
  }

  /** The empty-board sentence has no line break. */
  lemma EmptySentenceIsOneLine(boardSize: int)
    ensures '\n' !in EmptyBoardSentence(boardSize)
  {
    IntToStringNoSeparators(boardSize);
    assert '\n' !in SizeText(boardSize);
  }

  /** A decimal numeral contains none of the separators of a summary line. */
  lemma IntToStringNoSeparators(i: int)
    ensures '\n' !in IntToString(i) && '.' !in IntToString(i)
  {
    if i < 0 {
      assert IntToString(i) == "-" + NatToString(-i);
    }
  }

  /** Reads a summary line back: the number before the first ". ", the
      colour label up to the following " → ", and the coordinate after it. */
  function ParseSummaryLine(line: string): Option<(int, StoneColor, int, int)> {
    var i := IndexOf(line, '.');
    if i + 2 > |line| || line[i..i + 2] != ". " then None
    else
      var rest := line[i + 2..];
      var j := IndexOf(rest, ' ');
      if j + 3 > |rest| || rest[j..j + 3] != " → " then None
      else match (ParseInt(line[..i]), ParseColorLabel(rest[..j]), ParseCoordinate(rest[j + 3..]))
        case (Some(n), Some(color), Some((row, column))) => Some((n, color, row, column))
        case _ => None
  }

  /** Splitting at the first `c`: when `a` has no `c` and `sep` starts with
      one, the first `c` of `a + sep + b` ends `a`. */
  lemma SplitAtFirst(a: string, sep: string, b: string, c: char)
    requires c !in a && |sep| > 0 && sep[0] == c
    ensures var s := a + sep + b;
            && IndexOf(s, c) == |a| && |a| + |sep| <= |s|
            && s[..|a|] == a && s[|a|..|a| + |sep|] == sep && s[|a| + |sep|..] == b
  {
    assert a + sep + b == a + (sep + b);
    IndexOfAfter(a, sep + b, c);
  }

  /** A line made of a dot-free number, a space-free colour and a coordinate
      parses into the readings of those three parts. */
  lemma ParseSummaryParts(n: string, color: string, coord: string)
    requires '.' !in n && ' ' !in color
    ensures ParseSummaryLine(n + ". " + color + " → " + coord)
            == match (ParseInt(n), ParseColorLabel(color), ParseCoordinate(coord))
               case (Some(x), Some(c), Some((row, column))) => Some((x, c, row, column))
               case _ => None
  {
    var rest := color + " → " + coord;
    assert n + ". " + color + " → " + coord == n + ". " + rest;
    SplitAtFirst(n, ". ", rest, '.');
    SplitAtFirst(color, " → ", coord, ' ');
  }

  /** A summary line tells the model the move's number (its `moveNumber`,
      else its position + 1), its colour and its cell: reading the line
      back gives exactly these. */
  lemma SummaryLineRoundTrip(move: RouteMove, index: nat)
    requires 0 <= move.column < 25
    ensures ParseSummaryLine(SummaryLine(move, index))
            == Some((SummaryNumber(move, index), move.color, move.row, move.column))
  {
    var color := ColorLabel(move.color);
    IntToStringNoSeparators(SummaryNumber(move, index));
    assert ' ' !in color by {
      assert color == "Black" || color == "White";
    }
    ParseSummaryParts(IntToString(SummaryNumber(move, index)), color, FormatCoordinate(move.row, move.column));
    IntToStringRoundTrip(SummaryNumber(move, index));
    ColorLabelRoundTrip(move.color);
    FormatCoordinateRoundTrip(move.row, move.column);
  }

  /** Every line of the summary reads back as its move's number, colour and
      cell, in input order. */
  lemma SummaryLinesReadBack(moves: seq<RouteMove>, offset: nat)
    requires forall k :: 0 <= k < |moves| ==> 0 <= moves[k].column < 25
    ensures forall k :: 0 <= k < |moves| ==>
              ParseSummaryLine(SummaryLines(moves, offset)[k])
              == Some((SummaryNumber(moves[k], offset + k), moves[k].color, moves[k].row, moves[k].column))
  {
    forall k | 0 <= k < |moves|
      ensures ParseSummaryLine(SummaryLines(moves, offset)[k])
              == Some((SummaryNumber(moves[k], offset + k), moves[k].color, moves[k].row, moves[k].column))
    {
      assert SummaryLines(moves, offset)[k] == SummaryLine(moves[k], offset + k);
      SummaryLineRoundTrip(moves[k], offset + k);
    }
  }

  /** Summary lines are single non-empty lines when the columns are on a
      board of at most 25 columns. */
  lemma SummaryLineIsOneLine(move: RouteMove, index: nat)
    requires 0 <= move.column < 25
    ensures |SummaryLine(move, index)| > 0 && '\n' !in SummaryLine(move, index)
  {
    var n := IntToString(SummaryNumber(move, index));
    var coord := FormatCoordinate(move.row, move.column);
    var color := ColorLabel(move.color);
    IntToStringNoSeparators(SummaryNumber(move, index));
    IntToStringNoSeparators(move.row + 1);
    assert LetterColumn('\n').None?;
    assert '\n' !in coord by {
      assert coord == [ColumnLetter(move.column)] + IntToString(move.row + 1);
    }
    assert '\n' !in color by {
      assert color == "Black" || color == "White";
    }
    assert '\n' !in ". " && '\n' !in " → ";
    assert SummaryLine(move, index) == n + ". " + color + " → " + coord;
  }

  lemma SummaryHeaderIsOneLine(boardSize: int, count: nat)
    ensures |SummaryHeader(boardSize, count)| > 0 && '\n' !in SummaryHeader(boardSize, count)
  {
    var size := IntToString(boardSize);
    IntToStringNoSeparators(boardSize);
    IntToStringNoSeparators(count);
  }

  /** The summary of a non-empty move list reads back, line by line, as the
      header followed by one line per move in input order, each numbered by
      its own `moveNumber` or else by its position. */
  lemma {:induction false} BuildBoardSummaryLines(moves: seq<RouteMove>, boardSize: int)
    requires |moves| > 0
    requires forall k :: 0 <= k < |moves| ==> 0 <= moves[k].column < 25
    ensures SplitNewlineRuns(BuildBoardSummary(moves, boardSize))
            == [SummaryHeader(boardSize, |moves|)] + SummaryLines(moves, 0)
  {
    SummaryPiecesAreLines(moves, boardSize);
    SummaryIsJoin(moves, boardSize);
    SplitJoinRoundTrip([SummaryHeader(boardSize, |moves|)] + SummaryLines(moves, 0));
  }

  /** The header and every move line are single non-empty lines. */
  lemma SummaryPiecesAreLines(moves: seq<RouteMove>, boardSize: int)
    requires forall k :: 0 <= k < |moves| ==> 0 <= moves[k].column < 25
    ensures var lines := [SummaryHeader(boardSize, |moves|)] + SummaryLines(moves, 0);
            forall k :: 0 <= k < |lines| ==> |lines[k]| > 0 && '\n' !in lines[k]
  {
    var lines := [SummaryHeader(boardSize, |moves|)] + SummaryLines(moves, 0);
    forall k | 0 <= k < |lines| ensures |lines[k]| > 0 && '\n' !in lines[k] {
      if k == 0 {
        SummaryHeaderIsOneLine(boardSize, |moves|);
      } else {
        assert lines[k] == SummaryLine(moves[k - 1], k - 1);
        SummaryLineIsOneLine(moves[k - 1], k - 1);
      }
    }
  }

  /** A non-empty summary is the header and the move lines joined by "\n". */
  lemma SummaryIsJoin(moves: seq<RouteMove>, boardSize: int)
    requires |moves| > 0
    ensures BuildBoardSummary(moves, boardSize)
            == Join([SummaryHeader(boardSize, |moves|)] + SummaryLines(moves, 0), "\n")
  {
    JoinCons(SummaryHeader(boardSize, |moves|), SummaryLines(moves, 0), "\n");
  }

  // ---------------------------------------------------------------------------
  // Message content
  // ---------------------------------------------------------------------------

  /** `completion.choices?.[0]`. */
  function FirstChoice(completion: Completion): Option<Choice> {
    if completion.choices.Some? && |completion.choices.value| > 0 then Some(completion.choices.value[0])
    else None
  }

  /** A part's contribution: a string part as is, otherwise its `text`, with
      a missing text or a null part counting as "". */
  function PartText(part: ContentPart): string {
    match part
    case PartString(s) => s
    case PartObject(text) => text.GetOr("")
    case PartNull => ""
  }

  function JoinParts(parts: seq<ContentPart>): string {
    if |parts| == 0 then "" else PartText(parts[0]) + JoinParts(parts[1..])
  }

  /** `extractMessageContent`. */
  function ExtractMessageContent(choice: Option<Choice>): (r: string)
    ensures choice.None? || choice.value.content.None? ==> r == ""
    ensures choice.Some? && choice.value.content.Some? && choice.value.content.value.TextContent?
            ==> r == choice.value.content.value.s
    ensures choice.Some? && choice.value.content.Some? && choice.value.content.value.PartsContent?
            ==> |r| == TextLength(choice.value.content.value.parts)
  {
    if choice.None? || choice.value.content.None? then ""
    else match choice.value.content.value
      case TextContent(s) => s   // "" is falsy and also yields ""
      case PartsContent(parts) => JoinPartsLength(parts); JoinParts(parts)
  }

  function TextLength(parts: seq<ContentPart>): nat {
    if |parts| == 0 then 0 else |PartText(parts[0])| + TextLength(parts[1..])
  }

  lemma {:induction false} JoinPartsLength(parts: seq<ContentPart>)
    ensures |JoinParts(parts)| == TextLength(parts)
  {
    if |parts| > 0 {
      JoinPartsLength(parts[1..]);
    }
  }

  /** Joining is compositional: the content of two runs of parts is the
      concatenation of their contents. */
  lemma {:induction false} JoinPartsAppend(a: seq<ContentPart>, b: seq<ContentPart>)
    ensures JoinParts(a + b) == JoinParts(a) + JoinParts(b)
  {
    if |a| == 0 {
      assert a + b == b;
    } else {
      assert (a + b)[1..] == a[1..] + b;
      JoinPartsAppend(a[1..], b);
    }
  }

  /** Parts without text (null parts and objects without `text`) contribute
      nothing: removing them leaves the content unchanged. */
  function WithText(parts: seq<ContentPart>): seq<ContentPart> {
    if |parts| == 0 then []
    else if parts[0].PartNull? || parts[0] == PartObject(None) then WithText(parts[1..])
    else [parts[0]] + WithText(parts[1..])
  }

  lemma {:induction false} TextlessPartsIgnored(parts: seq<ContentPart>)
    ensures JoinParts(WithText(parts)) == JoinParts(parts)
  {
    if |parts| > 0 {
      TextlessPartsIgnored(parts[1..]);
      if !(parts[0].PartNull? || parts[0] == PartObject(None)) {
        assert WithText(parts) == [parts[0]] + WithText(parts[1..]);
        JoinPartsAppend([parts[0]], WithText(parts[1..]));
      }
    }
  }

  // ---------------------------------------------------------------------------
  // Suggestions
  // ---------------------------------------------------------------------------

  datatype Suggestions = Suggestions(suggestions: seq<string>, raw: string)

  /** `typeof entry === "string" ? entry.trim() : String(entry)`. */
  function RenderEntry(e: JsonEntry): string {
    match e
    case JString(s) => Trim(s)
    case JOther(rendered) => rendered
  }

  function RenderAll(entries: seq<JsonEntry>): (r: seq<string>)
    ensures |r| == |entries| && forall k :: 0 <= k < |entries| ==> r[k] == RenderEntry(entries[k])
  {
    if |entries| == 0 then [] else [RenderEntry(entries[0])] + RenderAll(entries[1..])
  }

  /** The bullet class of `/^[-•\s]+/`. */
  predicate IsBulletOrSpace(c: char) {
    c == '-' || c == '•' || IsWhitespace(c)
  }

  /** A fallback suggestion: a non-empty single line with no leading
      bullet or space and no trailing space. */
  predicate CleanPiece(x: string) {
    |x| > 0 && IsTrimmed(x) && !IsBulletOrSpace(x[0]) && '\n' !in x
  }

  /** Where the leading run of bullets and spaces of `line` ends. */
  function BulletEnd(line: string): (i: nat)
    ensures i <= |line|
    ensures forall k :: 0 <= k < i ==> IsBulletOrSpace(line[k])
    ensures i < |line| ==> !IsBulletOrSpace(line[i])
  {
    |line| - |TrimLeft(line, IsBulletOrSpace)|
  }

  /** `line.replace(/^[-•\s]+/, "").trim()`: the text between the leading
      run of bullets and spaces and the trailing whitespace. */
  function CleanLine(line: string): (r: string)
    ensures IsTrimmed(r)
    ensures r <= line[BulletEnd(line)..] && AllWhitespace(line[BulletEnd(line) + |r|..])
    ensures |r| > 0 ==> !IsBulletOrSpace(r[0])
    ensures forall c :: c in r ==> c in line
  {
    var stripped := TrimLeft(line, IsBulletOrSpace);
    CleanLineFacts(line, stripped);
    Trim(stripped)
  }

  lemma CleanLineFacts(line: string, stripped: string)
    requires stripped == TrimLeft(line, IsBulletOrSpace)
    ensures Trim(stripped) <= line[BulletEnd(line)..]
    ensures AllWhitespace(line[BulletEnd(line) + |Trim(stripped)|..])
    ensures |Trim(stripped)| > 0 ==> !IsBulletOrSpace(Trim(stripped)[0])
    ensures forall c :: c in Trim(stripped) ==> c in line
  {
    var b := BulletEnd(line);
    assert stripped == line[b..];
    TrimOfUnbulleted(stripped);
    SliceOfSuffix(line, b, stripped, Trim(stripped));
  }

  /** Trimming text that does not start with a bullet or a space only
      removes trailing whitespace. */
  lemma TrimOfUnbulleted(s: string)
    requires |s| == 0 || !IsBulletOrSpace(s[0])
    ensures Trim(s) <= s && AllWhitespace(s[|Trim(s)|..])
    ensures |Trim(s)| > 0 ==> !IsBulletOrSpace(Trim(s)[0])
  {
    if |s| > 0 {
      assert TrimLeft(s, IsWhitespace) == s;
    }
    TrimIsSlice(s);
  }

  /** A prefix of a suffix of `line`, followed in it only by whitespace, is
      followed in `line` only by whitespace and uses only its characters. */
  lemma SliceOfSuffix(line: string, b: nat, stripped: string, t: string)
    requires b <= |line| && stripped == line[b..]
    requires t <= stripped && AllWhitespace(stripped[|t|..])
    ensures AllWhitespace(line[b + |t|..])
    ensures forall c :: c in t ==> c in line
  {
    assert line[b + |t|..] == stripped[|t|..];
    assert t == line[b..b + |t|];
    SliceMembers(line, b, b + |t|);
  }

  lemma SliceMembers(s: string, i: nat, j: nat)
    requires i <= j <= |s|
    ensures forall c :: c in s[i..j] ==> c in s
  {
    forall c | c in s[i..j] ensures c in s {
      var k :| 0 <= k < |s[i..j]| && s[i..j][k] == c;
      assert s[i + k] == c;
    }
  }

  /** `pieces.map(line => clean(line))`. */
  function CleanAll(pieces: seq<string>): (r: seq<string>)
    ensures |r| == |pieces| && forall k :: 0 <= k < |pieces| ==> r[k] == CleanLine(pieces[k])
  {
    seq(|pieces|, k requires 0 <= k < |pieces| => CleanLine(pieces[k]))
  }

  /** `map(clean).filter(line => line.length > 0)` over newline-free
      pieces: the non-empty cleaned pieces in order; each survivor is a
      clean single line. */
  function CleanLines(pieces: seq<string>): (r: seq<string>)
    requires forall k :: 0 <= k < |pieces| ==> '\n' !in pieces[k]
    ensures forall k :: 0 <= k < |r| ==> CleanPiece(r[k])
  {
    CleanedArePieces(pieces);
    DropEmpty(CleanAll(pieces))
  }

  /** Every non-empty cleaned newline-free piece is a clean piece. */
  lemma CleanedArePieces(pieces: seq<string>)
    requires forall k :: 0 <= k < |pieces| ==> '\n' !in pieces[k]
    ensures forall k :: 0 <= k < |DropEmpty(CleanAll(pieces))| ==> CleanPiece(DropEmpty(CleanAll(pieces))[k])
  {
    var all := CleanAll(pieces);
    forall x | x in all && x != "" ensures CleanPiece(x) {
      var j :| 0 <= j < |all| && all[j] == x;
      CleanLineIsPiece(pieces[j]);
    }
  }

  /** A non-empty cleaned single line is a clean piece. */
  lemma CleanLineIsPiece(line: string)
    requires '\n' !in line
    ensures CleanLine(line) != "" ==> CleanPiece(CleanLine(line))
  {
  }

  lemma PrependClean(head: string, rest: seq<string>)
    requires CleanPiece(head) && forall k :: 0 <= k < |rest| ==> CleanPiece(rest[k])
    ensures forall k :: 0 <= k < |rest| + 1 ==> CleanPiece(([head] + rest)[k])
  {
    var r := [head] + rest;
    assert forall k :: 1 <= k < |r| ==> r[k] == rest[k - 1];
  }

  /** The line-splitting fallback: the first three of the non-empty cleaned
      lines, or all of them when there are fewer. */
  function FallbackSuggestions(trimmed: string): (r: seq<string>)
    ensures var cleaned := DropEmpty(CleanAll(SplitNewlineRuns(trimmed)));
            r <= cleaned && |r| == (if |cleaned| <= 3 then |cleaned| else 3)
    ensures forall k :: 0 <= k < |r| ==> CleanPiece(r[k])
  {
    var cleaned := CleanLines(SplitNewlineRuns(trimmed));
    if |cleaned| <= 3 then cleaned else cleaned[..3]
  }

  /** `parseSuggestions(content)` with `json` standing for what
      `JSON.parse(trimmed).suggestions` yields. */
  function ParseSuggestions(content: string, json: string -> JsonSuggestions): (r: Suggestions)
    ensures Trim(content) == "" ==> r == Suggestions([], "")
    ensures Trim(content) != "" ==> r.raw == Trim(content)
    ensures forall k :: 0 <= k < |r.suggestions| ==> r.suggestions[k] != ""
    ensures Trim(content) != "" && json(Trim(content)).AnArray?
            && (exists x :: x in RenderAll(json(Trim(content)).entries) && x != "")
            ==> forall x :: x in r.suggestions <==> x in RenderAll(json(Trim(content)).entries) && x != ""
    ensures Trim(content) != "" && json(Trim(content)).AnArray?
            && DropEmpty(RenderAll(json(Trim(content)).entries)) != []
            ==> r.suggestions == DropEmpty(RenderAll(json(Trim(content)).entries))
    ensures Trim(content) != ""
            && (!json(Trim(content)).AnArray? || DropEmpty(RenderAll(json(Trim(content)).entries)) == [])
            ==> r.suggestions == FallbackSuggestions(Trim(content))
    ensures |r.suggestions| > 3 ==> json(Trim(content)).AnArray?
  {
    var trimmed := Trim(content);
    if trimmed == "" then Suggestions([], "") else ParseTrimmed(trimmed, json)
  }

  /** `parseSuggestions` past the blank check: the array's entries when
      there are any, otherwise the line fallback. */
  function ParseTrimmed(trimmed: string, json: string -> JsonSuggestions): (r: Suggestions)
    ensures r.raw == trimmed
    ensures forall k :: 0 <= k < |r.suggestions| ==> r.suggestions[k] != ""
    ensures json(trimmed).AnArray? && (exists x :: x in RenderAll(json(trimmed).entries) && x != "")
            ==> forall x :: x in r.suggestions <==> x in RenderAll(json(trimmed).entries) && x != ""
    ensures json(trimmed).AnArray? && DropEmpty(RenderAll(json(trimmed).entries)) != []
            ==> r.suggestions == DropEmpty(RenderAll(json(trimmed).entries))
    ensures (!json(trimmed).AnArray? || DropEmpty(RenderAll(json(trimmed).entries)) == [])
            ==> r.suggestions == FallbackSuggestions(trimmed)
    ensures |r.suggestions| > 3 ==> json(trimmed).AnArray?
  {
    var fromJson := match json(trimmed)
      case AnArray(entries) => DropEmpty(RenderAll(entries))
      case _ => [];
    if |fromJson| > 0 then
      assert fromJson[0] in fromJson;
      Suggestions(fromJson, trimmed)
    else
      var fallback := FallbackSuggestions(trimmed);
      assert !json(trimmed).AnArray? || |fromJson| == 0;
      assert forall k :: 0 <= k < |fallback| ==> fallback[k] != "";
      Suggestions(fallback, trimmed)
  }

  /** Plain lines of text that need no cleaning come back as the first three
      lines when the content is not JSON. */
  lemma FallbackReadsLines(lines: seq<string>)
    requires |lines| > 0
    requires forall k :: 0 <= k < |lines| ==> CleanPiece(lines[k])
    ensures FallbackSuggestions(Join(lines, "\n")) == if |lines| <= 3 then lines else lines[..3]
  {
    SplitJoinRoundTrip(lines);
    CleanLinesKeepsClean(lines);
  }

  /** A bulleted list item: "- " before the text. */
  function Bulleted(lines: seq<string>): (r: seq<string>)
    ensures |r| == |lines| && forall k :: 0 <= k < |lines| ==> r[k] == "- " + lines[k]
  {
    seq(|lines|, k requires 0 <= k < |lines| => "- " + lines[k])
  }

  /** Cleaning removes a "- " bullet in front of clean text. */
  lemma CleanBulletedLine(x: string)
    requires CleanPiece(x)
    ensures CleanLine("- " + x) == x
  {
    var line := "- " + x;
    assert line[0] == '-' && line[1] == ' ' && line[2..] == x;
    assert BulletEnd(line) == 2;
  }

  /** The bulleted items of clean lines split back into those items. */
  lemma BulletedSplit(lines: seq<string>)
    requires |lines| > 0
    requires forall k :: 0 <= k < |lines| ==> CleanPiece(lines[k])
    ensures SplitNewlineRuns(Join(Bulleted(lines), "\n")) == Bulleted(lines)
  {
    var items := Bulleted(lines);
    forall k | 0 <= k < |items| ensures |items[k]| > 0 && '\n' !in items[k] {
      assert items[k] == "- " + lines[k];
    }
    SplitJoinRoundTrip(items);
  }

  /** Cleaning the bulleted items gives back the clean lines. */
  lemma CleanAllBulleted(lines: seq<string>)
    requires forall k :: 0 <= k < |lines| ==> CleanPiece(lines[k])
    ensures CleanAll(Bulleted(lines)) == lines
  {
    forall k | 0 <= k < |lines| ensures CleanAll(Bulleted(lines))[k] == lines[k] {
      CleanBulletedLine(lines[k]);
    }
  }

  /** A "- " bulleted list that is not JSON comes back as its first three
      items without their bullets. */
  lemma FallbackStripsBullets(lines: seq<string>)
    requires |lines| > 0
    requires forall k :: 0 <= k < |lines| ==> CleanPiece(lines[k])
    ensures FallbackSuggestions(Join(Bulleted(lines), "\n")) == if |lines| <= 3 then lines else lines[..3]
  {
    BulletedSplit(lines);
    CleanAllBulleted(lines);
    assert DropEmpty(lines) == lines;
  }

  /** Cleaning lines that are already clean changes nothing and drops
      nothing. */
  lemma CleanLinesKeepsClean(lines: seq<string>)
    requires forall k :: 0 <= k < |lines| ==> CleanPiece(lines[k]) && '\n' !in lines[k]
    ensures CleanLines(lines) == lines
  {
    forall k | 0 <= k < |lines| ensures CleanAll(lines)[k] == lines[k] {
      CleanOfClean(lines[k]);
    }
    assert CleanAll(lines) == lines;
  }

  /** A clean piece is its own cleaning. */
  lemma CleanOfClean(x: string)
    requires CleanPiece(x)
    ensures CleanLine(x) == x
  {
    assert BulletEnd(x) == 0;
  }

  // ---------------------------------------------------------------------------
  // Prompt and the whole route
  // ---------------------------------------------------------------------------

  const ClosingRequest: string := "Please return calm strategic nudges as JSON only."
  const DetailLabel: string := "Quest detail: "

  /** The user prompt's parts after `filter(Boolean)`: the board line, the
      board summary, the player to move, the quest focus, the quest detail
      line exactly when the trimmed detail is non-empty, and the closing
      request. */
  function PromptParts(request: Accepted): (r: seq<string>)
    ensures |r| == (if QuestDetail(request).Some? then 6 else 5)
    ensures r[0] == BoardPrefix + SizeText(request.boardSize)
    ensures r[1] == BuildBoardSummary(request.payload.moves.GetOr([]), request.boardSize)
    ensures r[2] == PlayerPrefix + request.payload.nextPlayer
    ensures r[3] == FocusPrefix + request.heading
    ensures r[|r| - 1] == ClosingRequest
    ensures QuestDetail(request).Some? <==> exists k :: 0 <= k < |r| - 1 && StartsWith(r[k], DetailLabel)
    ensures QuestDetail(request).Some? ==> r[4] == DetailLabel + QuestDetail(request).value
    ensures forall k :: 0 <= k < |r| ==> r[k] != ""
  {
    var summary := BuildBoardSummary(request.payload.moves.GetOr([]), request.boardSize);
    BoardSummaryStartsWithB(request.payload.moves.GetOr([]), request.boardSize);
    PromptPartsDetail(request, summary);
    PromptPartsWith(request, summary)
  }

  const BoardPrefix: string := "Board: "
  const PlayerPrefix: string := "Next to play: "
  const FocusPrefix: string := "Quest focus: "

  /** The parts before the optional detail line: the board line, the board
      summary, the player to move and the quest focus. */
  function PromptHead(request: Accepted, summary: string): seq<string> {
    [BoardPrefix + SizeText(request.boardSize), summary,
     PlayerPrefix + request.payload.nextPlayer, FocusPrefix + request.heading]
  }

  /** The `filter(Boolean)`ed array literal around a given board summary,
      the quest detail line included only when the trimmed detail is
      non-empty. */
  function PromptPartsWith(request: Accepted, summary: string): seq<string> {
    match QuestDetail(request)
    case Some(detail) => PromptHead(request, summary) + [DetailLabel + detail, ClosingRequest]
    case None => PromptHead(request, summary) + [ClosingRequest]
  }

  lemma PromptPartsDetail(request: Accepted, summary: string)
    requires |summary| > 0 && summary[0] == 'B'
    ensures |PromptPartsWith(request, summary)| == (if QuestDetail(request).Some? then 6 else 5)
    ensures PromptPartsWith(request, summary)[..4] == PromptHead(request, summary)
    ensures PromptPartsWith(request, summary)[1] == summary
    ensures var r := PromptPartsWith(request, summary); r[|r| - 1] == ClosingRequest
    ensures var r := PromptPartsWith(request, summary);
            QuestDetail(request).Some? <==> exists k :: 0 <= k < |r| - 1 && StartsWith(r[k], DetailLabel)
    ensures QuestDetail(request).Some? ==> PromptPartsWith(request, summary)[4] == DetailLabel + QuestDetail(request).value
    ensures var r := PromptPartsWith(request, summary); forall k :: 0 <= k < |r| ==> r[k] != ""
  {
    var head := PromptHead(request, summary);
    var r := PromptPartsWith(request, summary);
    OtherPartsAreNotDetailLines(request, summary);
    assert |ClosingRequest| > 0;
    assert forall k :: 0 <= k < 4 ==> r[k] == head[k];
    if QuestDetail(request).Some? {
      var line := DetailLabel + QuestDetail(request).value;
      assert r[4] == line;
      assert StartsWith(line, DetailLabel) by { assert line[..|DetailLabel|] == DetailLabel; }
    }
  }

  /** The parts before the detail line do not start with the detail label,
      and none of them is empty. */
  lemma OtherPartsAreNotDetailLines(request: Accepted, summary: string)
    requires |summary| > 0 && summary[0] == 'B'
    ensures var head := PromptHead(request, summary);
            forall k :: 0 <= k < 4 ==> head[k] != "" && !StartsWith(head[k], DetailLabel)
  {
    assert DetailLabel[0] == 'Q' && DetailLabel[6] == 'd';
    assert BoardPrefix[0] == 'B' && PlayerPrefix[0] == 'N' && FocusPrefix[6] == 'f';
    DiffersAt(BoardPrefix, SizeText(request.boardSize), 0);
    DiffersAt(PlayerPrefix, request.payload.nextPlayer, 0);
    DiffersAt(FocusPrefix, request.heading, 6);
    DiffersAt(summary, "", 0);
    assert summary + "" == summary;
  }

  /** A string whose `k`-th character differs from the detail label's does
      not start with the label. */
  lemma DiffersAt(a: string, b: string, k: nat)
    requires k < |a| && k < |DetailLabel| && a[k] != DetailLabel[k]
    ensures a + b != "" && !StartsWith(a + b, DetailLabel)
  {
    assert (a + b)[k] == a[k];
  }

  lemma BoardSummaryStartsWithB(moves: seq<RouteMove>, boardSize: int)
    ensures |BuildBoardSummary(moves, boardSize)| > 0 && BuildBoardSummary(moves, boardSize)[0] == 'B'
  {
    var size := SizeText(boardSize);
    if |moves| == 0 {
      StartsWithB("Board state: a ", size);
      StartsWithB("Board state: a " + size, " grid with no stones yet.");
    } else {
      var l := "Board state on a ";
      var count := IntToString(|moves|);
      StartsWithB(l, size);
      StartsWithB(l + size, " board after ");
      StartsWithB(l + size + " board after ", count);
      StartsWithB(l + size + " board after " + count, " move(s):");
      var header := SummaryHeader(boardSize, |moves|);
      StartsWithB(header, "\n");
      StartsWithB(header + "\n", Join(SummaryLines(moves, 0), "\n"));
    }
  }

  lemma StartsWithB(a: string, b: string)
    requires |a| > 0 && a[0] == 'B'
    ensures |a + b| > 0 && (a + b)[0] == 'B'
  {
  }


  /** `payload.quest.detail?.trim()`, kept only when non-empty. */
  function QuestDetail(request: Accepted): (r: Option<string>)
    ensures r.Some? ==> r.value != "" && IsTrimmed(r.value)
    ensures var quest := request.payload.quest;
            r.Some? <==> quest.Some? && quest.value.detail.Some? && Trim(quest.value.detail.value) != ""
    ensures r.Some? ==> r.value == Trim(request.payload.quest.value.detail.value)
  {
    var quest := request.payload.quest;
    if quest.Some? && quest.value.detail.Some? && Trim(quest.value.detail.value) != "" then
      Some(Trim(quest.value.detail.value))
    else None
  }

  /** The user message: the parts joined by blank lines. It opens with the
      board line, carries the board summary as a paragraph of its own, and
      closes with the request for JSON. */
  function UserPrompt(request: Accepted): (r: string)
    ensures StartsWith(r, BoardPrefix + SizeText(request.boardSize) + "\n\n")
    ensures Contains(r, "\n\n" + BuildBoardSummary(request.payload.moves.GetOr([]), request.boardSize) + "\n\n")
    ensures EndsWith(r, "\n\n" + ClosingRequest)
  {
    var parts := PromptParts(request);
    JoinEnds(parts, "\n\n");
    JoinSecond(parts, "\n\n");
    Join(parts, "\n\n")
  }

  /** With at least three parts, the second one stands between two
      separators. */
  lemma JoinSecond(parts: seq<string>, sep: string)
    requires |parts| >= 3
    ensures Contains(Join(parts, sep), sep + parts[1] + sep)
  {
    var rest := Join(parts[2..], sep);
    assert parts[1..][1..] == parts[2..];
    assert Join(parts, sep) == parts[0] + (sep + parts[1] + sep) + rest;
    ContainsMiddle(parts[0], sep + parts[1] + sep, rest);
  }

  /** `POST`: validation, then the upstream call (the `upstream` oracle
      receives the API key and the user prompt), then the suggestions. */
  function Post(body: Body, apiKey: Option<string>, upstream: (string, string) -> Upstream,
                json: string -> JsonSuggestions): (r: Response)
    ensures Validate(body, apiKey).Reject? ==> r == Validate(body, apiKey).response
    ensures r.status in {200, 400, 500, 502}
    ensures r.status == 200 <==> r.body.SuggestionsBody?
    ensures Validate(body, apiKey).Accept? ==>
              var req := Validate(body, apiKey).request;
              match upstream(req.apiKey, UserPrompt(req))
              case NotOk => r == Response(502, ErrorBody(UpstreamFailed))
              case FetchThrew => r == Response(500, ErrorBody(PipelineFailed))
              case Ok(None) => r == Response(500, ErrorBody(PipelineFailed))
              case Ok(Some(completion)) =>
                var parsed := ParseSuggestions(ExtractMessageContent(FirstChoice(completion)), json);
                r == Response(200, SuggestionsBody(parsed.suggestions, parsed.raw))
  {
    match Validate(body, apiKey)
    case Reject(response) => response
    case Accept(req) =>
      match upstream(req.apiKey, UserPrompt(req))
      case FetchThrew => Response(500, ErrorBody(PipelineFailed))
      case NotOk => Response(502, ErrorBody(UpstreamFailed))
      case Ok(None) => Response(500, ErrorBody(PipelineFailed))
      case Ok(Some(completion)) =>
        var parsed := ParseSuggestions(ExtractMessageContent(FirstChoice(completion)), json);
        Response(200, SuggestionsBody(parsed.suggestions, parsed.raw))
  }

  /** A request that fails validation gets the same answer whatever the
      upstream would have done: no upstream call is made. */
  lemma RejectedRequestsSkipUpstream(body: Body, apiKey: Option<string>,
                                     u1: (string, string) -> Upstream, u2: (string, string) -> Upstream,
                                     json: string -> JsonSuggestions)
    requires Validate(body, apiKey).Reject?
    ensures Post(body, apiKey, u1, json) == Post(body, apiKey, u2, json)
  {
  }
}

=== FILE: session.dfy ===
/**
 The page's move log and the heuristic insight lists derived from it
 (app/page.tsx): `handleMove`'s numbering, `nextPlayer`, `boardLabel`, and the
 `rememberItems`, `recentThoughts`, `quickThoughts` and `questItems` builders.
 */
module Session {
  import opened Wrappers
  import opened Text
  import opened Go

  /** A move as the page logs it: the board's move plus its 1-based number. */
  datatype LoggedMove = LoggedMove(row: int, column: int, color: StoneColor, moveNumber: int)

  /** One entry of an insight panel. */
  datatype InsightItem = InsightItem(id: string, heading: string, detail: Option<string>, tag: Option<string>)

  // ---------------------------------------------------------------------------
  // Move log
  // ---------------------------------------------------------------------------

  /** Entry i carries number i + 1. */
  predicate WellNumbered(moves: seq<LoggedMove>) {
    forall i :: 0 <= i < |moves| ==> moves[i].moveNumber == i + 1
  }

  /** `handleMove`: append the move numbered `previous.length + 1`; earlier
      entries are untouched, so the numbering invariant is kept. */
  function AppendMove(moves: seq<LoggedMove>, move: GoMove): (r: seq<LoggedMove>)
    ensures |r| == |moves| + 1 && r[..|moves|] == moves
    ensures r[|moves|].row == move.row && r[|moves|].column == move.column
    ensures r[|moves|].color == move.color
    ensures WellNumbered(moves) ==> WellNumbered(r)
  {
    moves + [LoggedMove(move.row, move.column, move.color, |moves| + 1)]
  }

  /** `nextPlayer`: derived from the parity of the number of moves. */
  function NextPlayer(moves: seq<LoggedMove>): (r: string)
    ensures r == "Black" <==> |moves| % 2 == 0
    ensures r == "White" <==> |moves| % 2 == 1
  {
    ColorLabel(ParityColor(|moves|))
  }

  /** The colour whose turn it is after `n` moves, black first. */
  function ParityColor(n: nat): StoneColor {
    if n % 2 == 0 then Black else White
  }

  /** `boardLabel`. */
  function BoardLabel(size: int): (r: string)
    ensures r == "expansive" <==> size == 19
    ensures r == "attentive" <==> size == 13
    ensures r == "compact" <==> size != 19 && size != 13
  {
    assert "expansive"[0] != "attentive"[0] && "attentive"[0] != "compact"[0] && "compact"[0] != "expansive"[0];
    if size == 19 then "expansive"
    else if size == 13 then "attentive"
    else "compact"
  }

  /** The three sizes offered by the resize control get three different labels. */
  lemma BoardLabelDistinguishesOfferedSizes(a: int, b: int)
    requires a in {9, 13, 19} && b in {9, 13, 19} && a != b
    ensures BoardLabel(a) != BoardLabel(b)
  {
  }

  // ---------------------------------------------------------------------------
  // Heuristic insight lists
  // ---------------------------------------------------------------------------

  /** Ids are unique within a panel. */
  predicate DistinctIds(items: seq<InsightItem>) {
    forall i, j :: 0 <= i < j < |items| ==> items[i].id != items[j].id
  }

  predicate HeadingsPresent(items: seq<InsightItem>) {
    forall i :: 0 <= i < |items| ==> |items[i].heading| > 0
  }

  function Last(moves: seq<LoggedMove>): LoggedMove
    requires |moves| > 0
  {
    moves[|moves| - 1]
  }

  function MoveLabel(m: LoggedMove): string {
    FormatCoordinate(m.row, m.column)
  }

  // The fixed sentences of the insight lists.
  const FirstStoneDetail: string := "Choose a corner or side to drop your first stone and feel the board respond."
  const LandedAt: string := " landed at "
  const SpotlightTail: string := ". What supporting stones would give it breathing room?"
  const SpotlightIdle: string := "Glance at the star points. Which one feels like the best anchor today?"
  const ResizeTail: string := " resets the tone—make the choice with care."
  const RecentEmptyDetail: string := "Every move will be reflected here with a quick note."
  const CornersDetail: string := "Claim an efficient base before exploring the middle. It keeps your next moves grounded."
  const LookTwiceDetail: string := "After each placement, scan for two follow-up moves. Notice which groups feel tense."
  const ShapeDetail: string := "Strong shapes often matter more than urgent captures. Can you thicken a group instead?"
  const QuestFirstDetail: string := "Place a stone on a corner star point and watch how the rest of the board reacts."
  const PreviewHead: string := "Before you click, picture how "
  const PreviewTail: string := " might answer. That anticipation is the playground."
  const LinkTail: string := " that strengthens the group."
  const CounterHead: string := "What sente move could "
  const CounterTail: string := " play now? Note two candidates before playing on."
  const ReflectDetail: string := "Narrate why the last stone felt right. Giving it language helps the playground adapt."

  /** Both inserted pieces of `a + x + b + y + c` occur in it. */
  lemma ContainsBoth(a: string, x: string, b: string, y: string, c: string)
    ensures Contains(a + x + b + y + c, x) && Contains(a + x + b + y + c, y)
  {
    assert a + x + b + y + c == a + x + (b + y + c);
    ContainsMiddle(a, x, b + y + c);
    ContainsMiddle(a + x + b, y, c);
  }

  /** The first `rememberItems` entry: the latest move, or an opening prompt. */
  function LatestMoveItem(moves: seq<LoggedMove>): (r: InsightItem)
    ensures r.id == (if |moves| > 0 then "latest-move" else "first-stone")
    ensures |moves| > 0 ==> && r.detail.Some? && Contains(r.detail.value, MoveLabel(Last(moves)))
                            && Contains(r.detail.value, IntToString(Last(moves).moveNumber))
                            && Contains(r.heading, ColorLabel(Last(moves).color))
  {
    if |moves| > 0 then
      var last := Last(moves);
      var heading := "Latest move · " + ColorLabel(last.color);
      var detail := "Move " + IntToString(last.moveNumber) + LandedAt + MoveLabel(last) + ".";
      ContainsMiddle("Latest move · ", ColorLabel(last.color), "");
      assert heading == "Latest move · " + ColorLabel(last.color) + "";
      ContainsBoth("Move ", IntToString(last.moveNumber), LandedAt, MoveLabel(last), ".");
      InsightItem("latest-move", heading, Some(detail), Some("Fresh"))
    else
      InsightItem("first-stone", "Start with presence",
        Some(FirstStoneDetail), None)
  }

  const IntentionOpening: string := "Open the board gently—play with corners and edges to sketch territory."
  const IntentionMiddle: string := "Look for weak groups. Can you reinforce yours or unsettle your opponent's shape?"

  /** The second entry: its advice changes once six moves have been played. */
  function IntentionItem(totalMoves: nat): (r: InsightItem)
    ensures r.id == "intention"
    ensures r.detail == Some(IntentionOpening) <==> totalMoves < 6
  {
    assert |IntentionOpening| != |IntentionMiddle|;
    InsightItem("intention", "Intent for this session",
      Some(if totalMoves < 6 then IntentionOpening else IntentionMiddle), None)
  }

  /** The third entry: where to look next. */
  function SpotlightItem(moves: seq<LoggedMove>): (r: InsightItem)
    ensures r.id == "spotlight"
    ensures |moves| > 0 ==> r.detail.Some? && Contains(r.detail.value, MoveLabel(Last(moves)))
  {
    if |moves| > 0 then
      var coord := MoveLabel(Last(moves));
      ContainsMiddle("Zoom in around ", coord, SpotlightTail);
      InsightItem("spotlight", "Spotlight area",
        Some("Zoom in around " + coord + SpotlightTail), None)
    else
      InsightItem("spotlight", "Spotlight area",
        Some(SpotlightIdle), None)
  }

  /** The fourth entry: the board scale. */
  function BoardScaleItem(boardSize: int): (r: InsightItem)
    ensures r.id == "board-scale"
    ensures Contains(r.heading, BoardLabel(boardSize))
  {
    var scale := BoardLabel(boardSize);
    var sizeText := IntToString(boardSize);
    ContainsPrefix(scale, " board");
    InsightItem("board-scale", scale + " board",
      Some("Resizing to " + sizeText + "×" + sizeText + ResizeTail), None)
  }

  /** A string contains its own prefix. */
  lemma ContainsPrefix(a: string, b: string)
    ensures Contains(a + b, a)
  {
    assert a <= (a + b)[0..];
  }

  /** `rememberItems`: four entries; the first and third speak about the
      latest move when there is one, the second switches tone after six
      moves, the last names the board scale. */
  function RememberItems(boardSize: int, moves: seq<LoggedMove>): (r: seq<InsightItem>)
    ensures |r| == 4 && DistinctIds(r) && HeadingsPresent(r)
    ensures r[0].id == "latest-move" <==> |moves| > 0
    ensures |moves| > 0 ==> && r[0].detail.Some? && Contains(r[0].detail.value, MoveLabel(Last(moves)))
                            && Contains(r[0].heading, ColorLabel(Last(moves).color))
                            && r[2].detail.Some? && Contains(r[2].detail.value, MoveLabel(Last(moves)))
    ensures r[1].detail == Some(IntentionOpening) <==> |moves| < 6
    ensures Contains(r[3].heading, BoardLabel(boardSize))
  {
    var a, b, c, d := LatestMoveItem(moves), IntentionItem(|moves|), SpotlightItem(moves), BoardScaleItem(boardSize);
    RememberIdsDistinct();
    HeadingOfItems(boardSize, moves);
    FourItems(a, b, c, d);
    var r := [a, b, c, d];
    assert r[0] == a && r[1] == b && r[2] == c && r[3] == d;
    r
  }

  lemma FourItems(a: InsightItem, b: InsightItem, c: InsightItem, d: InsightItem)
    requires a.id != b.id && a.id != c.id && a.id != d.id && b.id != c.id && b.id != d.id && c.id != d.id
    requires |a.heading| > 0 && |b.heading| > 0 && |c.heading| > 0 && |d.heading| > 0
    ensures DistinctIds([a, b, c, d]) && HeadingsPresent([a, b, c, d])
  {
  }

  lemma ThreeItems(a: InsightItem, b: InsightItem, c: InsightItem)
    requires a.id != b.id && a.id != c.id && b.id != c.id
    requires |a.heading| > 0 && |b.heading| > 0 && |c.heading| > 0
    ensures DistinctIds([a, b, c]) && HeadingsPresent([a, b, c])
  {
  }

  lemma RememberIdsDistinct()
    ensures "latest-move" != "first-stone"
    ensures "latest-move" != "intention" && "latest-move" != "spotlight" && "latest-move" != "board-scale"
    ensures "first-stone" != "intention" && "first-stone" != "spotlight" && "first-stone" != "board-scale"
    ensures "intention" != "spotlight" && "spotlight" != "board-scale" && "intention" != "board-scale"
  {
    assert "latest-move"[0] == 'l' && "first-stone"[0] == 'f';
    assert "intention"[0] == 'i' && "spotlight"[0] == 's' && "board-scale"[0] == 'b';
  }

  lemma HeadingOfItems(boardSize: int, moves: seq<LoggedMove>)
    ensures |LatestMoveItem(moves).heading| > 0 && |IntentionItem(|moves|).heading| > 0
    ensures |SpotlightItem(moves).heading| > 0 && |BoardScaleItem(boardSize).heading| > 0
  {
  }

  /** `[...s].reverse()`. */
  function Reverse<T>(s: seq<T>): (r: seq<T>)
    ensures |r| == |s|
    ensures forall k :: 0 <= k < |s| ==> r[k] == s[|s| - 1 - k]
  {
    if |s| == 0 then [] else Reverse(s[1..]) + [s[0]]
  }

  /** The entry `recentThoughts` shows for one move. */
  function RecentItem(m: LoggedMove): InsightItem {
    InsightItem("move-" + IntToString(m.moveNumber),
      "Move " + IntToString(m.moveNumber) + " · " + ColorLabel(m.color),
      Some("Placed at " + MoveLabel(m) + "."),
      Some(ColorLabel(m.color)))
  }

  function RecentItems(moves: seq<LoggedMove>): (r: seq<InsightItem>)
    ensures |r| == |moves|
    ensures forall k :: 0 <= k < |moves| ==> r[k] == RecentItem(moves[k])
  {
    if |moves| == 0 then [] else [RecentItem(moves[0])] + RecentItems(moves[1..])
  }

  /** `recentThoughts`: a single placeholder before the first move, otherwise
      the newest five moves, newest first. */
  function RecentThoughts(moves: seq<LoggedMove>): (r: seq<InsightItem>)
    ensures |moves| == 0 ==> |r| == 1 && r[0].id == "recent-empty"
    ensures |moves| > 0 ==> |r| == if |moves| < 5 then |moves| else 5
    ensures |moves| > 0 ==> forall k :: 0 <= k < |r| ==>
              var m := moves[|moves| - 1 - k];
              && r[k].id == "move-" + IntToString(m.moveNumber)
              && r[k].tag == Some(ColorLabel(m.color))
              && r[k].detail == Some("Placed at " + FormatCoordinate(m.row, m.column) + ".")
  {
    if |moves| == 0 then
      [InsightItem("recent-empty", "Waiting for the first beat",
        Some(RecentEmptyDetail), None)]
    else
      var newest := Reverse(moves);
      RecentItems(if |newest| < 5 then newest else newest[..5])
  }

  /** On a well-numbered log the recent entries have distinct ids. */
  lemma RecentThoughtsDistinctIds(moves: seq<LoggedMove>)
    requires WellNumbered(moves)
    ensures DistinctIds(RecentThoughts(moves))
  {
    var r := RecentThoughts(moves);
    if |moves| > 0 {
      forall i, j | 0 <= i < j < |r| ensures r[i].id != r[j].id {
        var a := moves[|moves| - 1 - i].moveNumber;
        var b := moves[|moves| - 1 - j].moveNumber;
        assert r[i].id == "move-" + IntToString(a);
        assert r[j].id == "move-" + IntToString(b);
        MoveIdsDistinct(a, b);
      }
    }
  }

  /** Different move numbers give different `move-` ids. */
  lemma MoveIdsDistinct(a: int, b: int)
    requires a != b
    ensures "move-" + IntToString(a) != "move-" + IntToString(b)
  {
    var x := "move-" + IntToString(a);
    var y := "move-" + IntToString(b);
    if x == y {
      assert x[5..] == IntToString(a);
      assert y[5..] == IntToString(b);
      IntToStringInjective(a, b);
    }
  }

  /** `quickThoughts`: three fixed prompts. */
  function QuickThoughts(): (r: seq<InsightItem>)
    ensures |r| == 3 && DistinctIds(r) && HeadingsPresent(r)
  {
    [ InsightItem("corners-first", "Corners before center",
        Some(CornersDetail), None),
      InsightItem("look-twice", "Let the board breathe",
        Some(LookTwiceDetail), None),
      InsightItem("shape-focus", "Shape over capture",
        Some(ShapeDetail), None) ]
  }

  const ScaleQuestTail: string := " board shifts the rhythm. Where would a wider board invite you to play?"

  /** The quests offered before the first move. */
  function OpeningQuests(boardSize: int, lower: string): (r: seq<InsightItem>)
    ensures |r| == 3 && DistinctIds(r) && HeadingsPresent(r)
    ensures r[0].id == "quest-first"
    ensures r[2].tag == Some(BoardLabel(boardSize))
  {
    var a := InsightItem("quest-first", "Drop a stone",
      Some(QuestFirstDetail), Some("Warm-up"));
    var b := InsightItem("quest-preview", "Imagine the reply",
      Some(PreviewHead + lower + PreviewTail), None);
    var c := InsightItem("quest-scale", "Feel the scale",
      Some("Notice how the " + BoardLabel(boardSize) + ScaleQuestTail),
      Some(BoardLabel(boardSize)));
    QuestIdsDistinct();
    ThreeItems(a, b, c);
    [a, b, c]
  }

  /** The quests offered once a stone is down. */
  function FollowUpQuests(coord: string, nextPlayer: string, lower: string): (r: seq<InsightItem>)
    ensures |r| == 3 && DistinctIds(r) && HeadingsPresent(r)
    ensures r[0].id == "quest-link"
    ensures r[0].detail.Some? && Contains(r[0].detail.value, coord)
    ensures Contains(r[1].heading, nextPlayer)
  {
    ContainsMiddle("Sketch a connection from ", coord, LinkTail);
    ContainsMiddle("Prepare for ", nextPlayer, "");
    assert "Prepare for " + nextPlayer == "Prepare for " + nextPlayer + "";
    var a := InsightItem("quest-link", "Extend from your last move",
      Some("Sketch a connection from " + coord + LinkTail), Some("Connect"));
    var b := InsightItem("quest-counter", "Prepare for " + nextPlayer,
      Some(CounterHead + lower + CounterTail), None);
    var c := InsightItem("quest-reflect", "Reflect out loud",
      Some(ReflectDetail), None);
    QuestIdsDistinct();
    ThreeItems(a, b, c);
    [a, b, c]
  }

  lemma QuestIdsDistinct()
    ensures "quest-first" != "quest-preview" && "quest-first" != "quest-scale" && "quest-preview" != "quest-scale"
    ensures "quest-link" != "quest-counter" && "quest-link" != "quest-reflect" && "quest-counter" != "quest-reflect"
    ensures "quest-link" != "quest-first"
  {
    assert "quest-first"[6] == 'f' && "quest-preview"[6] == 'p' && "quest-scale"[6] == 's';
    assert "quest-link"[6] == 'l' && "quest-counter"[6] == 'c' && "quest-reflect"[6] == 'r';
  }

  /** `questItems`: three warm-up quests before the first move, three quests
      about the latest move and the player to move afterwards. */
  function QuestItems(boardSize: int, moves: seq<LoggedMove>): (r: seq<InsightItem>)
    ensures |r| == 3 && DistinctIds(r) && HeadingsPresent(r)
    ensures r[0].id == "quest-link" <==> |moves| > 0
    ensures |moves| > 0 ==> r[0].detail.Some? && Contains(r[0].detail.value, MoveLabel(Last(moves)))
    ensures |moves| > 0 ==> Contains(r[1].heading, NextPlayer(moves))
    ensures |moves| == 0 ==> r[2].tag == Some(BoardLabel(boardSize))
  {
    var nextPlayer := NextPlayer(moves);
    var lower := LowerAscii(nextPlayer);
    QuestIdsDistinct();
    if |moves| == 0 then OpeningQuests(boardSize, lower)
    else FollowUpQuests(MoveLabel(Last(moves)), nextPlayer, lower)
  }

  /** `questItems.find(item => item.id === activeQuestId) ?? null`. */
  function FindItem(items: seq<InsightItem>, id: Option<string>): (r: Option<InsightItem>)
    ensures r.Some? <==> id.Some? && exists k :: 0 <= k < |items| && items[k].id == id.value
    ensures r.Some? ==> r.value in items && r.value.id == id.value
  {
    if id.None? || |items| == 0 then None
    else if items[0].id == id.value then Some(items[0])
    else FindItem(items[1..], id)
  }

  /** The first match wins. */
  lemma FindItemFirst(items: seq<InsightItem>, id: string, k: nat)
    requires k < |items| && items[k].id == id
    requires forall j :: 0 <= j < k ==> items[j].id != id
    ensures FindItem(items, Some(id)) == Some(items[k])
  {
    if k > 0 {
      FindItemFirst(items[1..], id, k - 1);
    }
  }
}

=== FILE: text.dfy ===
/**
 The JavaScript string operations the playground relies on: `trim`, the regular
 expression class `\s`, decimal rendering of integers, `Array.prototype.join`,
 `split(/\n+/)`, `startsWith`, `toLowerCase` on ASCII labels and the UTF-16
 `length` of a string. Strings are `seq<char>` (Unicode scalar values).
 */
module Text {
  import opened Wrappers

  // ---------------------------------------------------------------------------
  // Whitespace
  // ---------------------------------------------------------------------------

  /** ECMAScript WhiteSpace and LineTerminator code points: what `trim` removes
      and what `\s` matches. */
  predicate IsWhitespace(c: char) {
    || c == '\t' || c == '\n' || c == '\U{000B}' || c == '\U{000C}' || c == '\r'
    || c == ' ' || c == '\U{00A0}' || c == '\U{1680}'
    || ('\U{2000}' <= c <= '\U{200A}')
    || c == '\U{2028}' || c == '\U{2029}' || c == '\U{202F}' || c == '\U{205F}'
    || c == '\U{3000}' || c == '\U{FEFF}'
  }

  predicate AllWhitespace(s: string) {
    forall k :: 0 <= k < |s| ==> IsWhitespace(s[k])
  }

  /** Removes the longest prefix whose characters all satisfy `p`; this is
      `replace(/^[...]+/, "")` for the character class `p`. */
  function TrimLeft(s: string, p: char -> bool): (r: string)
    ensures |r| <= |s| && r == s[|s| - |r|..]
    ensures forall k :: 0 <= k < |s| - |r| ==> p(s[k])
    ensures |r| > 0 ==> !p(r[0])
  {
    if |s| > 0 && p(s[0]) then
      var r := TrimLeft(s[1..], p);
      assert forall k :: 1 <= k < |s| ==> s[k] == s[1..][k - 1];
      assert s[1..][|s| - 1 - |r|..] == s[|s| - |r|..];
      r
    else s
  }

  /** Removes the longest suffix whose characters all satisfy `p`. */
  function TrimRight(s: string, p: char -> bool): (r: string)
    ensures |r| <= |s| && r == s[..|r|]
    ensures forall k :: |r| <= k < |s| ==> p(s[k])
    ensures |r| > 0 ==> !p(r[|r| - 1])
  {
    if |s| > 0 && p(s[|s| - 1]) then TrimRight(s[..|s| - 1], p) else s
  }

  /** No whitespace at either end. */
  predicate IsTrimmed(s: string) {
    |s| == 0 || (!IsWhitespace(s[0]) && !IsWhitespace(s[|s| - 1]))
  }

  /** `String.prototype.trim`. */
  function Trim(s: string): (r: string)
    ensures IsTrimmed(r) && |r| <= |s|
  {
    var l := TrimLeft(s, IsWhitespace);
    var r := TrimRight(l, IsWhitespace);
    assert |r| > 0 ==> r[0] == l[0];
    r
  }

  /** A string with no whitespace at either end is its own trim. */
  lemma TrimOfTrimmed(s: string)
    requires IsTrimmed(s)
    ensures Trim(s) == s
  {
    if |s| > 0 {
      assert TrimLeft(s, IsWhitespace) == s;
      assert TrimRight(s, IsWhitespace) == s;
    }
  }

  /** Where the trimmed text starts and ends inside the input. */
  function TrimStart(s: string): (i: nat)
    ensures i <= |s|
  {
    |s| - |TrimLeft(s, IsWhitespace)|
  }

  function TrimEnd(s: string): (j: nat)
    ensures TrimStart(s) <= j <= |s|
  {
    TrimStart(s) + |TrimRight(TrimLeft(s, IsWhitespace), IsWhitespace)|
  }

  /** Trim keeps the contiguous slice between TrimStart and TrimEnd and
      removes only whitespace before and after it. */
  lemma TrimIsSlice(s: string)
    ensures Trim(s) == s[TrimStart(s)..TrimEnd(s)]
    ensures forall k :: 0 <= k < TrimStart(s) ==> IsWhitespace(s[k])
    ensures forall k :: TrimEnd(s) <= k < |s| ==> IsWhitespace(s[k])
  {
    var l := TrimLeft(s, IsWhitespace);
    var r := TrimRight(l, IsWhitespace);
    assert Trim(s) == r;
    assert l == s[TrimStart(s)..];
    assert r == l[..|r|];
    assert TrimEnd(s) == TrimStart(s) + |r|;
    TrimDropsTrailing(s);
  }

  /** What trim removes at the end is whitespace. */
  lemma TrimDropsTrailing(s: string)
    ensures forall k :: TrimEnd(s) <= k < |s| ==> IsWhitespace(s[k])
  {
    var l := TrimLeft(s, IsWhitespace);
    var r := TrimRight(l, IsWhitespace);
    assert TrimEnd(s) == TrimStart(s) + |r|;
    TrailingWhitespace(s, TrimStart(s), r);
  }

  /** What TrimRight removed from a suffix of `s` is whitespace. */
  lemma TrailingWhitespace(s: string, i: nat, r: string)
    requires i <= |s| && r == TrimRight(s[i..], IsWhitespace)
    ensures forall k :: i + |r| <= k < |s| ==> IsWhitespace(s[k])
  {
    var l := s[i..];
    forall k | i + |r| <= k < |s| ensures IsWhitespace(s[k]) {
      assert s[k] == l[k - i];
    }
  }

  /** Trimming is idempotent. */
  lemma TrimIdempotent(s: string)
    ensures Trim(Trim(s)) == Trim(s)
  {
    TrimOfTrimmed(Trim(s));
  }

  /** A trimmed string is empty exactly when the input is all whitespace. */
  lemma TrimEmptyIffAllWhitespace(s: string)
    ensures Trim(s) == "" <==> AllWhitespace(s)
  {
    if !AllWhitespace(s) {
      TrimIsSlice(s);
    }
  }

  // ---------------------------------------------------------------------------
  // Decimal rendering of integers (template literals `${n}`)
  // ---------------------------------------------------------------------------

  predicate IsDigit(c: char) {
    '0' <= c <= '9'
  }

  predicate AllDigits(s: string) {
    forall k :: 0 <= k < |s| ==> IsDigit(s[k])
  }

  function DigitChar(d: nat): (c: char)
    requires d < 10
    ensures IsDigit(c) && c as int - '0' as int == d
  {
    (d + '0' as int) as char
  }

  function DigitValue(c: char): nat
    requires IsDigit(c)
  {
    c as int - '0' as int
  }

  /** The base-10 numeral of `n`, without leading zeros. */
  function NatToString(n: nat): (r: string)
    ensures |r| >= 1 && AllDigits(r)
    ensures |r| == 1 <==> n < 10
    ensures r[0] != '0' || n == 0
  {
    if n < 10 then [DigitChar(n)] else NatToString(n / 10) + [DigitChar(n % 10)]
  }

  /** The value of a string of decimal digits. */
  function DigitsValue(s: string): nat
    requires AllDigits(s)
  {
    if |s| == 0 then 0 else DigitsValue(s[..|s| - 1]) * 10 + DigitValue(s[|s| - 1])
  }

  lemma {:induction false} NatToStringRoundTrip(n: nat)
    ensures DigitsValue(NatToString(n)) == n
  {
    if n >= 10 {
      var r := NatToString(n);
      NatToStringRoundTrip(n / 10);
      assert r[..|r| - 1] == NatToString(n / 10);
    }
  }

  /** `${i}` for an integer `i`. */
  function IntToString(i: int): (r: string)
    ensures |r| >= 1
  {
    if i < 0 then "-" + NatToString(-i) else NatToString(i)
  }

  /** Reads back what IntToString writes; `None` for anything else. */
  function ParseInt(s: string): Option<int> {
    if |s| > 1 && s[0] == '-' && AllDigits(s[1..]) then Some(-(DigitsValue(s[1..]) as int))
    else if |s| > 0 && AllDigits(s) then Some(DigitsValue(s))
    else None
  }

  lemma IntToStringRoundTrip(i: int)
    ensures ParseInt(IntToString(i)) == Some(i)
  {
    if i < 0 {
      ParseNegative(-i);
    } else {
      ParseNonNegative(i);
    }
  }

  /** A minus sign followed by the numeral of `n` reads back as `-n`. */
  lemma ParseNegative(n: nat)
    ensures ParseInt("-" + NatToString(n)) == Some(-(n as int))
  {
    var digits := NatToString(n);
    var s := "-" + digits;
    assert s[1..] == digits;
    NatToStringRoundTrip(n);
  }

  /** The numeral of `n` reads back as `n`. */
  lemma ParseNonNegative(n: nat)
    ensures ParseInt(NatToString(n)) == Some(n)
  {
    assert IsDigit(NatToString(n)[0]);
    NatToStringRoundTrip(n);
  }

  lemma IntToStringInjective(a: int, b: int)
    ensures IntToString(a) == IntToString(b) ==> a == b
  {
    IntToStringRoundTrip(a);
    IntToStringRoundTrip(b);
  }

  // ---------------------------------------------------------------------------
  // Array.prototype.join
  // ---------------------------------------------------------------------------

  /** `parts.join(sep)`: the parts in order with `sep` between neighbours. */
  function Join(parts: seq<string>, sep: string): (r: string)
    ensures |parts| == 0 ==> r == ""
    ensures |parts| > 0 ==> parts[0] <= r
  {
    if |parts| == 0 then ""
    else if |parts| == 1 then parts[0]
    else parts[0] + sep + Join(parts[1..], sep)
  }

  /** A join of at least two parts begins with the first part and a
      separator, and ends with a separator and the last part. */
  lemma {:induction false} JoinEnds(parts: seq<string>, sep: string)
    requires |parts| >= 2
    ensures StartsWith(Join(parts, sep), parts[0] + sep)
    ensures EndsWith(Join(parts, sep), sep + parts[|parts| - 1])
  {
    var tail := Join(parts[1..], sep);
    assert Join(parts, sep) == parts[0] + sep + tail;
    assert (parts[0] + sep + tail)[..|parts[0] + sep|] == parts[0] + sep;
    if |parts| == 2 {
      assert tail == parts[1];
      EndsWithAppend(parts[0], sep + parts[1], sep + parts[1]);
      assert parts[0] + sep + tail == parts[0] + (sep + parts[1]);
    } else {
      JoinEnds(parts[1..], sep);
      EndsWithAppend(parts[0] + sep, tail, sep + parts[|parts| - 1]);
    }
  }

  /** `filter(entry => entry.length > 0)` on strings (`entry && ...` for
      strings is the same test), order kept. */
  function DropEmpty(s: seq<string>): (r: seq<string>)
    ensures |r| <= |s|
    ensures forall x :: x in r <==> x in s && x != ""
    ensures forall k :: 0 <= k < |r| ==> r[k] in s && r[k] != ""
    ensures (forall k :: 0 <= k < |s| ==> s[k] != "") ==> r == s
    ensures r == [] <==> forall k :: 0 <= k < |s| ==> s[k] == ""
  {
    if |s| == 0 then []
    else (if s[0] != "" then [s[0]] else []) + DropEmpty(s[1..])
  }

  /** The filter works entry by entry: filtering a concatenation filters
      each half and keeps them in order. With the contract's clause for
      lists without empty entries this fixes order and multiplicity. */
  lemma {:induction false} DropEmptyAppend(a: seq<string>, b: seq<string>)
    ensures DropEmpty(a + b) == DropEmpty(a) + DropEmpty(b)
  {
    if |a| == 0 {
      assert a + b == b;
    } else {
      assert (a + b)[0] == a[0];
      assert (a + b)[1..] == a[1..] + b;
      DropEmptyAppend(a[1..], b);
    }
  }

  /** An empty entry anywhere is dropped and the rest keep their order. */
  lemma DropEmptySkipsEmpty(a: seq<string>, b: seq<string>)
    ensures DropEmpty(a + [""] + b) == DropEmpty(a) + DropEmpty(b)
  {
    DropEmptyAppend(a + [""], b);
    DropEmptyAppend(a, [""]);
  }

  // ---------------------------------------------------------------------------
  // split(/\n+/)
  // ---------------------------------------------------------------------------

  predicate IsNewline(c: char) {
    c == '\n'
  }

  /** `s.indexOf(c)`, with |s| standing for "not found". */
  function IndexOf(s: string, c: char): (i: nat)
    ensures i <= |s|
    ensures forall k :: 0 <= k < i ==> s[k] != c
    ensures i < |s| ==> s[i] == c
  {
    if |s| == 0 || s[0] == c then 0 else 1 + IndexOf(s[1..], c)
  }

  /** `s` with every newline that follows a newline removed: each maximal
      run of newlines becomes a single one. */
  function CollapseNewlineRuns(s: string): string {
    if |s| <= 1 then s
    else if s[0] == '\n' && s[1] == '\n' then CollapseNewlineRuns(s[1..])
    else [s[0]] + CollapseNewlineRuns(s[1..])
  }

  /** `s.split(/\n+/)`: the pieces between maximal runs of newlines. Pieces
      never contain a newline, only the first and the last piece can be
      empty, and a piece at an end is empty only when `s` is empty or
      starts or ends with a newline. `SplitJoinsToCollapse` fixes the
      pieces' contents. */
  function SplitNewlineRuns(s: string): (r: seq<string>)
    ensures |r| >= 1
    ensures forall k :: 0 <= k < |r| ==> '\n' !in r[k]
    ensures forall k :: 0 < k < |r| - 1 ==> |r[k]| > 0
    ensures |s| > 0 && s[0] != '\n' ==> |r[0]| > 0
    ensures |s| > 0 && s[|s| - 1] != '\n' ==> |r[|r| - 1]| > 0
    decreases |s|
  {
    var i := IndexOf(s, '\n');
    if i == |s| then
      CollapseNoNewline(s);
      [s]
    else
      var rest := TrimLeft(s[i..], IsNewline);
      var tail := SplitNewlineRuns(rest);
      LastOfRest(s[i..]);
      assert |tail| > 1 ==> |tail[0]| > 0 by {
        if |rest| == 0 { assert tail == [""]; }
      }
      ConsPieces(s[..i], tail);
      [s[..i]] + tail
  }

  /** A newline-free line in front of split pieces keeps the pieces' shape. */
  lemma ConsPieces(a: string, tail: seq<string>)
    requires '\n' !in a && |tail| >= 1
    requires forall k :: 0 <= k < |tail| ==> '\n' !in tail[k]
    requires forall k :: 0 < k < |tail| - 1 ==> |tail[k]| > 0
    requires |tail| > 1 ==> |tail[0]| > 0
    ensures var r := [a] + tail;
            && r[0] == a && r[|r| - 1] == tail[|tail| - 1]
            && (forall k :: 0 <= k < |r| ==> '\n' !in r[k])
            && (forall k :: 0 < k < |r| - 1 ==> |r[k]| > 0)
  {
    var r := [a] + tail;
    assert forall k :: 0 < k < |r| ==> r[k] == tail[k - 1];
  }

  /** Joining a part in front of a non-empty list adds it and a separator. */
  lemma JoinCons(a: string, tail: seq<string>, sep: string)
    requires |tail| > 0
    ensures Join([a] + tail, sep) == a + sep + Join(tail, sep)
  {
    assert ([a] + tail)[1..] == tail;
  }

  /** Collapsing at the first newline: the line before it, one newline, and
      the collapsed text after the run. */
  lemma CollapseAtFirstNewline(line: string, t: string)
    requires '\n' !in line && |t| > 0 && t[0] == '\n'
    ensures CollapseNewlineRuns(line + t) == line + "\n" + CollapseNewlineRuns(TrimLeft(t, IsNewline))
  {
    var c := CollapseNewlineRuns(TrimLeft(t, IsNewline));
    calc {
      CollapseNewlineRuns(line + t);
      { CollapseAfterLine(line, t); }
      line + CollapseNewlineRuns(t);
      { CollapseRun(t); }
      line + ("\n" + c);
      line + "\n" + c;
    }
  }

  /** What is left after a run of newlines ends where `t` ends, unless `t`
      ends in a newline. */
  lemma LastOfRest(t: string)
    ensures var rest := TrimLeft(t, IsNewline);
            |t| > 0 && t[|t| - 1] != '\n' ==> |rest| > 0 && rest[|rest| - 1] == t[|t| - 1]
  {
  }

  /** The pieces joined with "\n" are `s` with each run of newlines
      collapsed to one; with the pieces free of newlines this fixes them. */
  lemma {:induction false} SplitJoinsToCollapse(s: string)
    ensures Join(SplitNewlineRuns(s), "\n") == CollapseNewlineRuns(s)
    decreases |s|
  {
    var i := IndexOf(s, '\n');
    if i == |s| {
      CollapseNoNewline(s);
    } else {
      var rest := TrimLeft(s[i..], IsNewline);
      SplitJoinsToCollapse(rest);
      assert s == s[..i] + s[i..] && '\n' !in s[..i];
      CollapseAtFirstNewline(s[..i], s[i..]);
      JoinCons(s[..i], SplitNewlineRuns(rest), "\n");
    }
  }

  /** Without newlines there is nothing to collapse. */
  lemma {:induction false} CollapseNoNewline(s: string)
    requires '\n' !in s
    ensures CollapseNewlineRuns(s) == s
  {
    if |s| > 1 {
      CollapseNoNewline(s[1..]);
    }
  }

  /** A newline-free prefix is kept as it is. */
  lemma {:induction false} CollapseAfterLine(a: string, b: string)
    requires '\n' !in a
    ensures CollapseNewlineRuns(a + b) == a + CollapseNewlineRuns(b)
  {
    if |a| > 0 {
      if |a + b| > 1 {
        assert (a + b)[1..] == a[1..] + b;
        CollapseAfterLine(a[1..], b);
      } else {
        assert b == [];
      }
    } else {
      assert a + b == b;
    }
  }

  /** A leading run of newlines collapses to one newline before the rest. */
  lemma {:induction false} CollapseRun(t: string)
    requires |t| > 0 && t[0] == '\n'
    ensures CollapseNewlineRuns(t) == "\n" + CollapseNewlineRuns(TrimLeft(t, IsNewline))
  {
    if |t| > 1 && t[1] == '\n' {
      CollapseRun(t[1..]);
    }
  }

  /** Joining newline-free, non-empty lines with "\n" and splitting on newline
      runs gives the lines back. */
  lemma {:induction false} SplitJoinRoundTrip(lines: seq<string>)
    requires |lines| > 0
    requires forall k :: 0 <= k < |lines| ==> |lines[k]| > 0 && '\n' !in lines[k]
    ensures SplitNewlineRuns(Join(lines, "\n")) == lines
  {
    var s := Join(lines, "\n");
    if |lines| == 1 {
      assert IndexOf(s, '\n') == |s| by { IndexOfAfter(s, "", '\n'); }
    } else {
      var a := lines[0];
      var tail := Join(lines[1..], "\n");
      assert s == a + ("\n" + tail);
      IndexOfAfter(a, "\n" + tail, '\n');
      assert s[|a|..] == "\n" + tail && s[..|a|] == a;
      assert lines[1] <= tail;
      SkipOneNewline(tail);
      SplitJoinRoundTrip(lines[1..]);
    }
  }

  /** One newline before a line that does not start with one is a run of
      length one. */
  lemma SkipOneNewline(tail: string)
    requires |tail| > 0 && tail[0] != '\n'
    ensures TrimLeft("\n" + tail, IsNewline) == tail
  {
    assert ("\n" + tail)[1..] == tail;
  }

  /** The first `c` of `a + b` is where `b` starts when `a` has none and
      `b` is empty or starts with one. */
  lemma {:induction false} IndexOfAfter(a: string, b: string, c: char)
    requires c !in a
    requires |b| == 0 || b[0] == c
    ensures IndexOf(a + b, c) == |a|
  {
    if |a| == 0 {
      assert a + b == b;
    } else {
      assert (a + b)[0] == a[0];
      assert (a + b)[1..] == a[1..] + b;
      IndexOfAfter(a[1..], b, c);
    }
  }

  // ---------------------------------------------------------------------------
  // startsWith, toLowerCase, UTF-16 length, substring
  // ---------------------------------------------------------------------------

  /** `s.startsWith(prefix)`. */
  predicate StartsWith(s: string, prefix: string) {
    prefix <= s
  }

  /** `s.endsWith(suffix)`. */
  predicate EndsWith(s: string, suffix: string) {
    |suffix| <= |s| && s[|s| - |suffix|..] == suffix
  }

  lemma EndsWithAppend(a: string, b: string, suffix: string)
    requires EndsWith(b, suffix)
    ensures EndsWith(a + b, suffix)
  {
    assert (a + b)[|a + b| - |suffix|..] == b[|b| - |suffix|..];
  }

  /** `needle` occurs somewhere inside `s`. */
  predicate Contains(s: string, needle: string) {
    exists i :: 0 <= i <= |s| && needle <= s[i..]
  }

  lemma ContainsMiddle(a: string, needle: string, b: string)
    ensures Contains(a + needle + b, needle)
  {
    var s := a + needle + b;
    assert needle <= s[|a|..];
  }

  /** `toLowerCase` restricted to ASCII letters, which is all the labels it is
      applied to contain. */
  function LowerAscii(s: string): (r: string)
    ensures |r| == |s|
    ensures forall k :: 0 <= k < |s| ==> ('A' <= s[k] <= 'Z' ==> r[k] as int == s[k] as int + 32)
    ensures forall k :: 0 <= k < |s| ==> (!('A' <= s[k] <= 'Z') ==> r[k] == s[k])
  {
    if |s| == 0 then ""
    else
      var c := s[0];
      [if 'A' <= c <= 'Z' then (c as int + 32) as char else c] + LowerAscii(s[1..])
  }

  /** JavaScript's `length`: the number of UTF-16 code units, two for every
      code point outside the Basic Multilingual Plane. */
  function Utf16Length(s: string): nat {
    if |s| == 0 then 0 else (if s[0] as int > 0xFFFF then 2 else 1) + Utf16Length(s[1..])
  }

  lemma {:induction false} Utf16LengthBounds(s: string)
    ensures |s| <= Utf16Length(s) <= 2 * |s|
    ensures (forall k :: 0 <= k < |s| ==> s[k] as int <= 0xFFFF) ==> Utf16Length(s) == |s|
  {
    if |s| > 0 {
      Utf16LengthBounds(s[1..]);
    }
  }

  lemma {:induction false} Utf16LengthAppend(a: string, b: string)
    ensures Utf16Length(a + b) == Utf16Length(a) + Utf16Length(b)
  {
    if |a| > 0 {
      assert (a + b)[1..] == a[1..] + b;
      Utf16LengthAppend(a[1..], b);
    } else {
      assert a + b == b;
    }
  }
}

=== FILE: wrappers.dfy ===
/** Optional values: the model's stand-in for `undefined`, `null` and the `??` operator. */
module Wrappers {

  datatype Option<+T> = None | Some(value: T) {

    /** The value, or `default` when absent (JavaScript's `value ?? default`). */
    function GetOr(default: T): T {
      match this
      case Some(v) => v
      case None => default
    }
  }
}
